=== FILE: README.md ===
# Top-down shooter engine in Dafny

This project models the simulation core of a browser top-down shooter. The
player fights enemies with three AI teammates (bots) in a walled field of
rectangular obstacles.

One game tick (`Game.update`) runs these steps in order:

1. The player moves by the held keys and may fire at the mouse.
2. Each bot runs its four-state AI (follow, engage, cover, flank) and may fire
   at its targeted enemy.
3. Each enemy chases or strafes its nearest target and may fire at the player.
4. The projectiles move. Those inside an obstacle or outside the field are
   dropped.
5. Each remaining projectile damages at most one agent of the opposing faction
   and is then removed.
6. Dead enemies and bots are culled.
7. If fewer than three enemies remain, a batch of five is spawned.

`gameLoop` caps the tick at 0.1 s and does nothing at all while the game is
paused.

The modules follow the source files:

| module | file | content |
|---|---|---|
| `Geometry` | `geometry.dfy` | `Obstacle.ts` as a rectangle record, the squared-distance tests, the per-axis collision slide shared by all agents, and the min-tracking nearest scan |
| `Agent` | `agent.dfy` | the clamped `takeDamage` and the cooldown countdown that Player, Bot and Enemy share |
| `Settings` | `settings.dfy` | `GameSettings` |
| `Seqs` | `seqs.dfy` | the order-preserving `Array.filter` |
| `Projectiles` | `projectile.dfy` | `Projectile.ts` |
| `Players` | `player.dfy` | `Player.ts` |
| `Enemies` | `enemy.dfy` | `Enemy.ts` |
| `Bots` | `bot.dfy` | `Bot.ts` |
| `Rules` | `rules.dfy` | the value-level rules of `Game.ts`: the dt clamp, the projectile cull, the faction and damage rule of a hit, the whole collision pass as a fold over shots, and the respawn floor |
| `Engine` | `engine.dfy` | the `Game` class |

Every entity whose fields the source updates in place is a `class`. Each of
its mutating methods is proved against a value-level function of the old
state, and the lemmas state the promised properties about that function:

- `Bot.Update` is proved against `BotStep`;
- `Enemy.Update` against `EnemyMotion` and `Target`;
- `Player.Update` against `PlayerMotion`;
- `Game.CheckProjectileCollisions` against `Resolve`;
- `Game.Update` against `Ticked`, which composes `PlayerMotion`, the bots' `TakeTurn`, the enemies' `EnemyTakeTurn`, the first filter `Flight` and `Resolve`.

Modelling conventions:

- Numbers are `real`.
- Every `Math.sqrt(d) < k` threshold is a comparison of squared distances
  (`Closer`, `Farther`). All thresholds are non-negative: 400, 500, 300, 20
  and `radius + 5`.
- The vector normalisation `(dx / len, dy / len)` and the `atan2`/`cos`/`sin`
  perpendicular are uninterpreted functions of a `Host` record passed to each
  tick.
- The values drawn from `Math.random` are a `Draws` record per bot. They are
  not constrained, so every result holds for any drawn values.
- The canvas is reduced to its width and height.
- The key set and the mouse record the listeners maintain are parameters of a
  tick.

Where the model follows the code rather than the obvious intent:

- The cover point is always `(o.x - 30, o.y + o.height / 2)` of the obstacle
  whose top-left corner is nearest. It ignores which side the enemy is on
  (`CoverPositionChoice`).
- Dead enemies stay in the array during the collision pass and still absorb
  projectiles until the cull. `FirstHitIgnoresHealth` and
  `ImpactIgnoresHealth` show that hits never look at health.
- An enemy always aims at the player, not at its chosen target.

## Model

| member | source | states |
|---|---|---|
| Agent.Damaged | app/game/entities/Bot.ts:245-247 | the health after `takeDamage` is never negative, is either 0 or health − amount, and never rises for a non-negative amount |
| Agent.CooledDown | app/game/entities/Bot.ts:58 | the countdown `max(0, cooldown − dt)` is never negative and is either 0 or cooldown − dt |
| Agent.DamageAccumulates | app/game/entities/Player.ts:79-81 | two hits of non-negative amounts leave the same health as one hit of their sum |
| Agent.DamageStaysInRange | app/game/entities/Enemy.ts:107-109 | health in [0, maxHealth] stays in [0, maxHealth] after any non-negative hit |
| Agent.CooldownAccumulates | app/game/entities/Enemy.ts:22 | two countdowns of non-negative lengths equal one countdown of their sum |
| Agent.CooldownGates | app/game/entities/Player.ts:56-58 | a cooldown just set to the shoot delay allows shooting again exactly when the elapsed time has reached the delay |
| Geometry.AnyContains | app/game/Game.ts:191-196 | the obstacle test holds iff some obstacle contains the point strictly inside, so edges are outside |
| Geometry.Blocked | app/game/entities/Player.ts:47-54 | the collision test holds iff the disc of radius r overlaps some obstacle, with strict inequalities |
| Geometry.SlideAxes | app/game/entities/Player.ts:36-41 | each axis keeps its old coordinate or takes the candidate; a clear candidate x (then y at the decided x) is always taken and a blocked one never is |
| Geometry.SlideKeepsClear | app/game/entities/Enemy.ts:47-52 | a disc that starts clear of every obstacle is still clear after the per-axis move |
| Geometry.Nearest | app/game/entities/Bot.ts:83-94 | the min-tracking scan finds no index exactly when there are no points, and otherwise an index in range |
| Geometry.NearestIsFirstMinimum | app/game/entities/Bot.ts:83-94 | the index found is at minimal distance, and every earlier point is strictly farther, so ties keep the first |
| Geometry.NearestCharacterised | app/game/entities/Bot.ts:83-94 | the first index at minimal distance is exactly what the scan returns |
| Seqs.KeptIndices | app/game/Game.ts:161-176 | a filter's result is the kept elements at strictly increasing source indices, so the relative order is preserved; an element is kept iff the predicate holds |
| Seqs.FilterMembership | app/game/Game.ts:182-183 | an element is in the filtered array iff it was in the array and passes the predicate |
| Seqs.FilterAllKept | app/game/Game.ts:182-183 | every element of a filtered array passes the predicate |
| Seqs.FilterIdentity | app/game/Game.ts:161-176 | a filter returns the array unchanged iff its predicate holds for every element |
| Seqs.FilterAppend | app/game/Game.ts:161-176 | filtering a concatenation is the concatenation of the filtered parts, so each element is judged on its own |
| Seqs.FilterDistinct | app/game/Game.ts:182-183 | a filter of an array without repeats has no repeats |
| Projectiles.AdvanceMovesOnlyPosition | app/game/entities/Projectile.ts:26-29 | one tick gives x + vx·dt, y + vy·dt and leaves velocity, owner, damage and radius as they were |
| Projectiles.AdvanceZero | app/game/entities/Projectile.ts:26-29 | a tick of length 0 is the identity |
| Projectiles.AdvanceAdditive | app/game/entities/Projectile.ts:26-29 | a tick of a followed by a tick of b equals one tick of a + b |
| Projectiles.Projectile.constructor | app/game/entities/Projectile.ts:10-24 | the projectile stores the given position, velocity, owner and damage, with radius 5 |
| Projectiles.Projectile.Update | app/game/entities/Projectile.ts:26-29 | the new state is one linear-motion tick of the old state |
| Players.KeyDirectionCancels | app/game/entities/Player.ts:20-26 | each direction component is −1, 0 or 1; it is 0 iff both or neither of the opposite keys are held; d alone gives dx = 1 and w alone gives dy = −1 |
| Players.PlayerIdleWithoutIntent | app/game/entities/Player.ts:28 | with no keys, or only opposite pairs, the player does not move |
| Players.PlayerStaysClear | app/game/entities/Player.ts:36-54 | a player clear of every radius-expanded obstacle stays clear after a tick |
| Players.Player.constructor | app/game/entities/Player.ts:14-17 | a new player is at the given position with full health (100) and no cooldown |
| Players.Player.Update | app/game/entities/Player.ts:19-45 | the new position is `PlayerMotion` of the old one, and the cooldown is `max(0, old − dt)` |
| Players.Player.MoveAxes | app/game/entities/Player.ts:36-41 | the new position is the per-axis slide toward the candidate |
| Players.Player.Shoot | app/game/entities/Player.ts:60-77 | no projectile iff on cooldown, and then the cooldown is unchanged; otherwise the cooldown becomes 0.2 and a fresh player projectile of damage 25 starts at the player, aimed at the target at speed 800 |
| Players.Player.TakeDamage | app/game/entities/Player.ts:79-81 | the health becomes `max(0, health − amount)` |
| Enemies.TargetChoice | app/game/entities/Enemy.ts:24-36 | the target is the player iff no bot is strictly closer; otherwise it is the first bot strictly closer than the player and than every earlier bot, and no farther than any bot |
| Enemies.ChaseOrStrafe | app/game/entities/Enemy.ts:38-66 | beyond 300 the enemy heads straight for its target at full speed; at 300 or closer it moves along the perpendicular at half speed |
| Enemies.EnemyStaysClear | app/game/entities/Enemy.ts:69-76 | an enemy clear of every radius-expanded obstacle stays clear after a tick |
| Enemies.EnemyFiresAtPlayer | app/game/entities/Enemy.ts:84-105 | an enemy's turn moves it by `EnemyMotion` toward its `Target`; it fires iff its cooldown ran out during the tick and it is not at the player's position; the shot goes at the player and the cooldown becomes 1.2, otherwise the cooldown is `max(0, old − dt)`; the bots affect the shot only through where the enemy moved |
| Enemies.Enemy.constructor | app/game/entities/Enemy.ts:16-19 | a new enemy is at the given position with full health (80) and no cooldown |
| Enemies.Enemy.Update | app/game/entities/Enemy.ts:21-67 | the cooldown is `max(0, old − dt)`, and the new position is `EnemyMotion` toward the target of `TargetChoice` |
| Enemies.Enemy.FindTarget | app/game/entities/Enemy.ts:24-36 | the scan returns the chosen target and its squared distance |
| Enemies.Enemy.MoveAxes | app/game/entities/Enemy.ts:47-52 | the new position is the per-axis slide toward the candidate |
| Enemies.Enemy.Shoot | app/game/entities/Enemy.ts:88-105 | no projectile iff on cooldown; otherwise the cooldown becomes 1.2 and a fresh enemy projectile of damage 15 starts at the enemy, aimed at the player at speed 500 |
| Enemies.Enemy.TakeDamage | app/game/entities/Enemy.ts:107-109 | the health becomes `max(0, health − amount)` |
| Bots.TierSpeed | app/game/entities/Bot.ts:38-49 | the speed is 200 for Standard, 300 for Fast and 400 for Very Fast |
| Bots.CoverPositionChoice | app/game/entities/Bot.ts:188-200 | with no obstacles the cover point is (player.x − 100, player.y); otherwise a first nearest top-left corner exists, and the cover point is (o.x − 30, o.y + o.height / 2) of that obstacle |
| Bots.SteerProperties | app/game/entities/Bot.ts:155-186 | within 20 units of the target the bot does not move; otherwise each axis keeps its coordinate or takes the candidate; a clear bot stays clear |
| Bots.BehaveStaysClear | app/game/entities/Bot.ts:65-78 | whatever the state, its behaviour keeps a clear bot clear |
| Bots.BotTargetsFirstNearest | app/game/entities/Bot.ts:83-94 | after a tick the target is the first enemy at minimal distance, and there is none exactly when there are no enemies |
| Bots.BotStepCountdowns | app/game/entities/Bot.ts:58-59 | the cooldown becomes `max(0, old − dt) ≥ 0` and the speed is kept; a still-positive timer is old − dt, and an expired one is reset to 2, 3 or 4 |
| Bots.BotStateSticks | app/game/entities/Bot.ts:97 | while the decremented timer is positive, the state, cover point and flank target are unchanged |
| Bots.BotTransitions | app/game/entities/Bot.ts:97-118 | on expiry: no enemy within 400 gives follow for 2 s; otherwise a draw < 0.5 gives engage for 3 s, < 0.75 cover for 4 s at `CoverPosition`, and anything else flank for 3 s; the cover point and flank target not assigned in a branch are kept |
| Bots.BotFlankTarget | app/game/entities/Bot.ts:108-111 | on expiry with an enemy within 400 and a draw of at least 0.75, the flank target becomes `FlankPosition` of the nearest enemy |
| Bots.TurnFiresAtNearest | app/game/entities/Bot.ts:219-243 | a bot's turn keeps `BotStep`'s target; it fires iff the cooldown has run out during the tick, the first nearest enemy is strictly within 500 of the moved bot and not at its position; the shot is `BotShot` toward that enemy and the cooldown becomes 0.35; with no enemies there is no shot |
| Bots.BotStaysClear | app/game/entities/Bot.ts:51-79 | a bot clear of every radius-expanded obstacle is still clear after a tick |
| Bots.RefireAfterDelay | app/game/entities/Bot.ts:219-229 | a bot that has just fired wants to shoot again only once at least 0.35 s have passed and it has a target, and then it does when the target is strictly within 500 |
| Bots.Bot.constructor | app/game/entities/Bot.ts:25-31 | a new bot is at the given position with its name, full health, the tier speed, no cooldown or timer, in follow state, and with no target |
| Bots.Bot.UpdateSettings | app/game/entities/Bot.ts:33-49 | the settings are stored and the speed matches the tier (200, 300 or 400); re-applying the same settings keeps the speed |
| Bots.Bot.Update | app/game/entities/Bot.ts:51-79 | the new bot is `BotStep` of the old one, and `targetEnemy` is the enemy at the step's target index, or null |
| Bots.Bot.Act | app/game/entities/Bot.ts:65-78 | the new position is the behaviour that the current state selects |
| Bots.Bot.UpdateAI | app/game/entities/Bot.ts:81-119 | the target is the first nearest enemy, and the mind makes the `Decide` transition |
| Bots.Bot.Transition | app/game/entities/Bot.ts:97-118 | the timer-driven state machine from the nearest enemy's distance and the draws |
| Bots.Bot.FindNearest | app/game/entities/Bot.ts:83-94 | the scan returns the enemy at `Nearest`'s index (null for none) and its squared distance |
| Bots.Bot.FollowPlayer | app/game/entities/Bot.ts:121-128 | the bot steers toward the randomly offset follow point around the player |
| Bots.Bot.EngageEnemy | app/game/entities/Bot.ts:130-140 | with no target the bot stands still; otherwise it steers at 0.3 speed toward the point 50 units along the perpendicular to the enemy |
| Bots.Bot.ProvideCover | app/game/entities/Bot.ts:142-148 | the bot steers to the stored cover point, or follows the player when none is stored |
| Bots.Bot.FlankEnemy | app/game/entities/Bot.ts:150-153 | with no flank target the bot stands still; otherwise it steers toward the target |
| Bots.Bot.MoveTowards | app/game/entities/Bot.ts:155-177 | the new position is `Steer`: the dead zone, then the per-axis slide |
| Bots.Bot.MoveAxes | app/game/entities/Bot.ts:170-175 | the new position is the per-axis slide toward the candidate |
| Bots.Bot.ShouldShoot | app/game/entities/Bot.ts:219-224 | true iff there is a target, the cooldown is ≤ 0, and the target is strictly within 500 |
| Bots.Bot.Shoot | app/game/entities/Bot.ts:226-243 | no projectile iff there is no target or the bot is on cooldown; otherwise the cooldown becomes 0.35 and a fresh bot projectile of damage 20 starts at the bot, aimed at the target |
| Bots.Bot.TakeDamage | app/game/entities/Bot.ts:245-247 | the health becomes `max(0, health − amount)` |
| Rules.ClampDelta | app/game/Game.ts:122 | the tick is never more than 0.1 s nor more than the elapsed time, and is one of the two |
| Rules.DroppedIffInside | app/game/Game.ts:161-196 | a projectile in the field is dropped iff its centre is strictly inside some obstacle; a centre on an obstacle's edge line survives |
| Rules.Moved | app/game/Game.ts:162 | each shot makes one linear-motion tick, in order |
| Rules.FlightMembers | app/game/Game.ts:161-176 | a shot is left after the first filter iff it is the move of some old shot and lies in the field outside every obstacle |
| Rules.FlightAppend | app/game/Game.ts:161-176 | the first filter of a concatenated row is the concatenation of the filtered rows |
| Rules.FirstHit | app/game/Game.ts:202-210 | no hit iff the shot touches no agent; otherwise the index of the first agent it touches |
| Rules.FirstHitByHits | app/game/Game.ts:202-210 | the first hit depends only on which agents the shot touches |
| Rules.FactionIsolation | app/game/Game.ts:200-226 | a player or bot shot leaves the player and every bot as they were; an enemy shot leaves every enemy as it was |
| Rules.FriendlyShotChoice | app/game/Game.ts:201-211 | a player or bot shot damages only the first enemy it touches, by `damage · multiplier` for a bot and by exactly `damage` for the player, or misses iff it touches none |
| Rules.EnemyShotChoice | app/game/Game.ts:214-226 | an enemy shot damages the player iff it touches the player, otherwise the first bot it touches, by exactly `damage`, or misses iff it touches neither |
| Rules.ApplyTouchesOne | app/game/Game.ts:198-230 | an impact changes at most the agent it names, by `takeDamage`, and keeps the array lengths |
| Rules.FirstHitIgnoresHealth | app/game/Game.ts:232-236 | the first hit depends on positions and radii only, so a dead enemy still absorbs a shot |
| Rules.ImpactIgnoresHealth | app/game/Game.ts:198-230 | a shot's impact is the same in two worlds that differ only in health |
| Rules.ApplyKeepsPlaces | app/game/Game.ts:198-230 | an impact changes no agent's position or radius |
| Rules.ResolveKeepsPlaces | app/game/Game.ts:198-230 | the whole collision pass changes no agent's position or radius |
| Rules.ResolveStep | app/game/Game.ts:198-230 | each shot's impact in the pass equals its impact against the world before the pass |
| Rules.ResolveKeepsMisses | app/game/Game.ts:198-230 | the projectiles kept are, in order, exactly those that miss the world before the pass |
| Rules.ResolvePlayerHealthFalls | app/game/Game.ts:214-226 | with non-negative damages, the collision pass never raises the player's health |
| Rules.Respawned | app/game/Game.ts:185-188 | after respawn there are at least 3 enemies: n + 5 if n < 3, otherwise n |
| Engine.FirstHitIn | app/game/Game.ts:202-210 | the early-exit loop finds `FirstHit` |
| Engine.ImpactIn | app/game/Game.ts:200-226 | the branches of the filter callback compute `ImpactOf` |
| Engine.FriendlyShotImpact | app/game/Game.ts:201-211 | the friendly branch computes `ImpactOf`, with the multiplier for bot shots |
| Engine.EnemyShotImpact | app/game/Game.ts:214-226 | the enemy branch computes `ImpactOf`, whatever the multiplier |
| Engine.FilterShots | app/game/Game.ts:161-176 | filtering projectiles by a test on their values gives, in order, the values filtered by that test |
| Engine.KeptShots | app/game/Game.ts:198-230 | the projectiles the collision filter keeps have, in order, the shots that `Resolve` keeps |
| Engine.AliveEnemies | app/game/Game.ts:182 | the enemies with health > 0, in order |
| Engine.AliveBots | app/game/Game.ts:183 | the bots with health > 0, in order |
| Engine.BotVolley | app/game/Game.ts:143-146 | the bots push at most one projectile each per tick |
| Engine.EnemyVolley | app/game/Game.ts:154-157 | the enemies push at most one projectile each per tick |
| Engine.Game.constructor | app/game/Game.ts:29-50 | the player at (100, 100) with full health and no cooldown; Alpha, Bravo and Charlie at their start points with the given settings, each `Recruited`: full health, the tier's speed, no cooldown, following with a zero timer, no cover or flank point, no target; the six obstacles; five enemies at the spawn points with full health and no cooldown; no projectiles; not paused |
| Engine.Game.NewBots | app/game/Game.ts:37-41 | three distinct fresh bots with their names, positions and settings, each `Recruited`: full health, the tier's speed, no cooldown, following with a zero timer, no cover or flank point, no target |
| Engine.Game.SpawnEnemies | app/game/Game.ts:65-77 | five fresh enemies with full health and no cooldown at the spawn points, appended in order after the existing ones |
| Engine.Game.UpdateSettings | app/game/Game.ts:93-96 | the settings are stored; every bot has them with the matching tier speed, and each bot's position, mind, cooldown, health and target are as they were |
| Engine.Game.Pause | app/game/Game.ts:109-111 | the game is paused |
| Engine.Game.Resume | app/game/Game.ts:113-115 | the game is not paused |
| Engine.Game.GameLoop | app/game/Game.ts:117-127 | while paused nothing at all changes, `lastTime` included; otherwise `lastTime` becomes the frame time and the new state is one `Ticked` step of length `ClampDelta` of the elapsed time, with at least 3 enemies and only live agents; the pause flag and the settings never change |
| Engine.Game.Tick | app/game/Game.ts:122-125 | the unpaused frame: `lastTime` becomes the frame time and the state makes one `Ticked` step of length `ClampDelta` of the elapsed time, with at least 3 enemies and only live agents |
| Engine.Game.Update | app/game/Game.ts:129-189 | one `Ticked` step: the player moves by `PlayerMotion`, fires `PlayerVolley` and ends with the cooldown reset to 0.2 iff it fired; each bot takes its `TakeTurn` from its old view against the old enemy positions, then each enemy its `EnemyTakeTurn` against where the bots now stand; the projectiles left are the shots `Resolve` keeps from `Flight` of the old shots followed by the player, bot and enemy volleys, against the moved agents, which `Placed` and `SameHealths` fix outright (the turns' places, the agents' own radii, the old healths); `hit`, the world `Resolve` leaves, gives the player's final health and, index by index over the old rows, every old bot's and enemy's final health and position; every old bot ends with its turn's view and target and its old settings (`TurnRecords`), every old enemy with its turn's view; the live enemies stay in order with the respawn floor after them, and the live bots stay in order |
| Engine.PlacedDetermines | app/game/Game.ts:129-158 | the world after the turns is determined: two worlds placed by the same turns, with the same healths as a third, are equal; so `Ticked` fixes the hits and `hit` |
| Engine.Game.MoveAgents | app/game/Game.ts:130-158 | the player moves by `PlayerMotion`, fires `PlayerVolley` and has its cooldown reset to 0.2 iff it fired; the bots take their turns, then the enemies theirs against the moved bots; each ends in its turn's state; no agent's health changes; the new shots are appended after the old projectiles in push order, player, bots, enemies |
| Engine.Game.PlayerTurn | app/game/Game.ts:130-137 | the player moves by `PlayerMotion`, then fires `PlayerVolley` with the cooldown its update left, reset to 0.2 iff it fired; the shot is appended; its health does not change |
| Engine.Game.FightersTurn | app/game/Game.ts:139-158 | the bots take their turns from their views, then the enemies take theirs against where the bots now stand; their shots are appended in that order |
| Engine.Game.ResolveProjectiles | app/game/Game.ts:160-188 | the projectiles left are the shots `Resolve` keeps from `Flight` of the old shots against the old agents, and `hit`, the world `Resolve` leaves, is what the player and the old rows of bots and enemies, index by index, end as (health and position), dead ones included; the live enemies stay in order with the respawn floor after them; the live bots stay in order; at least 3 enemies, all alive; the player does not move; Besides health, nothing of any agent changes (`OnlyHealths`): the player keeps its place and cooldown, each bot its view (place, speed, cooldown, mind), target and settings, each enemy its place and cooldown. |
| Engine.Game.MoveAndHit | app/game/Game.ts:160-179 | `shots` is `Flight` of the old shots and `survivors` the projectiles that survive their move, in order; the agents become the `Resolve` world of `shots`, and the projectiles left are the survivors that missed, in order, with the shots `Resolve` keeps; Besides health, nothing of any agent changes (`OnlyHealths`): the player keeps its place and cooldown, each bot its view (place, speed, cooldown, mind), target and settings, each enemy its place and cooldown. |
| Engine.Game.AdvanceAll | app/game/Game.ts:161-176 | the projectiles become, in order, those that survive one move and the obstacle and bounds tests, with `Flight` of the old shots as values; the agents are untouched (`OnlyHealths` with no health changed either) |
| Engine.Game.HitSurvivors | app/game/Game.ts:179 | the agents become the `Resolve` world of the projectiles' shots, and the projectiles left are those that missed, in order, with the shots `Resolve` keeps; Besides health, nothing of any agent changes (`OnlyHealths`): the player keeps its place and cooldown, each bot its view (place, speed, cooldown, mind), target and settings, each enemy its place and cooldown. |
| Engine.Game.Cull | app/game/Game.ts:181-188 | the live enemies stay in order, followed, when fewer than 3 remain, by fresh full-health enemies up to `Respawned`; the live bots stay in order; every live agent stays; the projectiles and every old agent's state are untouched |
| Engine.Game.Respawn | app/game/Game.ts:185-188 | the enemy count becomes `Respawned(n)`, with fresh full-health enemies appended after the old ones; with live old enemies all enemies are live; the old enemies are untouched |
| Engine.Game.PlayerShooting | app/game/Game.ts:133-137 | a player projectile is appended iff the mouse is pressed and the player can shoot (and the aim is not zero-length); it is the player's `Shoot` result |
| Engine.Game.UpdateBots | app/game/Game.ts:139-148 | each bot, in order, ends in the state of its `TakeTurn` from its view before the loop, aiming at the enemy its turn targets; the turns' shots are appended in bot order |
| Engine.Game.StepBots | app/game/Game.ts:140-148 | the forEach loop: every bot ends in its turn's state, and the shots, fresh bot projectiles, are the turns' volley in order |
| Engine.Game.StepBot | app/game/Game.ts:141-147 | one bot ends in its turn's state, and its shot, if any, is appended as a fresh bot projectile |
| Engine.Game.BotAct | app/game/Game.ts:141-147 | one bot's update and shouldShoot/shoot: the bot ends in its turn's state, and a fresh bot projectile is returned iff the turn fires, with the turn's shot as value |
| Engine.Game.UpdateEnemies | app/game/Game.ts:150-158 | each enemy, in order, ends in the state of its `EnemyTakeTurn` against where the bots stand; the turns' shots are appended in enemy order; the bots are unchanged |
| Engine.Game.StepEnemies | app/game/Game.ts:151-158 | the forEach loop: every enemy ends in its turn's state, and the shots, fresh enemy projectiles, are the turns' volley in order |
| Engine.Game.StepEnemy | app/game/Game.ts:152-157 | one enemy ends in its turn's state, and its shot, if any, is appended as a fresh enemy projectile |
| Engine.Game.AdvanceProjectiles | app/game/Game.ts:161-176 | every projectile makes one linear-motion tick, the survivors of the obstacle and bounds tests are kept in their order, and their values are `Flight` of the old values; the agents are untouched |
| Engine.Game.MoveProjectiles | app/game/Game.ts:162 | every projectile makes one linear-motion tick, and the values become `Moved` of the old ones; the agents are untouched |
| Engine.Game.KeepSurvivors | app/game/Game.ts:161-176 | the order-preserving filter that keeps exactly the projectiles in the field and outside every obstacle; their values are `Culled` of the old values |
| Engine.Game.CheckProjectileCollisions | app/game/Game.ts:198-230 | the new health of every agent is the `Resolve` fold of the old projectiles over the old world; the projectiles kept are, in order, those that missed, and their shots are the ones `Resolve` keeps; Besides health, nothing of any agent changes (`OnlyHealths`): the player keeps its place and cooldown, each bot its view (place, speed, cooldown, mind), target and settings, each enemy its place and cooldown. |
| Engine.Game.ResolveHits | app/game/Game.ts:199-229 | the filter loop: the world becomes `Resolve` of the shots, and the kept shots are the misses, in order; Besides health, nothing of any agent changes (`OnlyHealths`): the player keeps its place and cooldown, each bot its view (place, speed, cooldown, mind), target and settings, each enemy its place and cooldown. |
| Engine.Game.ApplyImpact | app/game/Game.ts:207-222 | the one `takeDamage` call an impact names, as `Apply` on the world; Besides health, nothing of any agent changes (`OnlyHealths`): the player keeps its place and cooldown, each bot its view (place, speed, cooldown, mind), target and settings, each enemy its place and cooldown. |
| Engine.Game.RemoveDead | app/game/Game.ts:182-183 | the enemies and bots with health > 0, each in their order; no agent's state changes |

## Left out

- Drawing is left out: `render`, `drawGrid`, `drawUI` and every entity's `render`. It produces output only.
- Listener registration and mouse-coordinate scaling are left out. They are browser I/O; the key set and the mouse record are tick parameters.
- `requestAnimationFrame`, `cancelAnimationFrame`, `performance.now`, `start`, `stop` and `animationId` are left out. They are browser scheduling; `GameLoop` takes the frame time as a parameter.
- `Math.sqrt` normalisation and the `atan2`/`cos`/`sin` strafe and flank geometry are uninterpreted `Host` functions. Floating-point trigonometry cannot be reasoned about meaningfully.
- `Math.random` is replaced by injected `Draws` values.
- IEEE-754 rounding, infinities and NaN are not modelled; numbers are reals.
- Players.Player.Shoot, Enemies.Enemy.Shoot, Bots.Bot.Shoot: these require a non-zero aim length. At a zero-length aim the source still resets the cooldown (`app/game/entities/Player.ts:63`) and pushes a projectile whose velocity is NaN; the model has no NaN, so `PlayerVolley`, `TakeTurn` and `EnemyTakeTurn` skip both the shot and the cooldown reset there.
- The canvas is not modelled. Only its width and height are kept, as constructor parameters.
- `Enemy.update` receives the bots' positions rather than the bot objects. Positions are all it reads of them.
- `Bot.update`'s `otherBots` parameter and `Player.update`'s `mouse` parameter are not modelled. Neither is read.
- Engine.Game.AdvanceProjectiles: the source moves and tests each projectile inside one filter callback; the model moves them all first and then filters. Every test looks only at that projectile's own new position, so the results are the same.
- Engine.Game.UpdateBots, Engine.Game.UpdateEnemies: shots are collected during the loop and appended after it, in the same order. No agent reads the projectile array during the loop.
- Engine.Game.CheckProjectileCollisions: each impact is computed on a value snapshot of the agents and then applied. This is equivalent because hits depend on positions only.
- Bots.TierSpeed: the `default` case of `updateSpeed` is not modelled. Speed tiers are a closed datatype, so no other string can occur.
- Engine.Game.GameLoop: does not repeat `Update`'s facts about the order of the live agents and the respawn, nor its ties of every old bot's and enemy's final health to `hit` and of their final views, targets and settings to the turns; `Ticked` (which fixes the moved world, the hits, the player's final place, cooldown and health, and the projectiles left) and the liveness facts are what it carries. The frame time is recorded after the tick rather than before it; the tick never reads `lastTime`, so the result is the same.
- Engine.Game.Tick: the same as for `GameLoop`: only `Ticked`, the liveness facts and the recorded frame time are stated.
- The React pages, the options menu and the layout are not part of this model.

=== FILE: agent.dfy ===
/**
 * The protocol Player, Bot and Enemy share: a clamped health reduction, a
 * shoot cooldown that counts down to zero, and the combat view of an agent
 * that the collision pass works on.
 */
module Agent {
  import opened Geometry

  /** `Math.max(0, health - amount)`: every takeDamage. */
  function Damaged(health: real, amount: real): (h: real)
    ensures h >= 0.0
    ensures h == 0.0 || h == health - amount
    ensures h >= health - amount
    ensures amount >= 0.0 && health >= 0.0 ==> h <= health
  {
    if health - amount > 0.0 then health - amount else 0.0
  }

  /** `Math.max(0, cooldown - dt)`: the cooldown after a tick. */
  function CooledDown(cooldown: real, dt: real): (c: real)
    ensures c >= 0.0
    ensures c == 0.0 || c == cooldown - dt
    ensures c >= cooldown - dt
  {
    if cooldown - dt > 0.0 then cooldown - dt else 0.0
  }

  /** Damage applied twice is damage of the sum applied once, for non-negative amounts. */
  lemma DamageAccumulates(health: real, a: real, b: real)
    requires a >= 0.0 && b >= 0.0
    ensures Damaged(Damaged(health, a), b) == Damaged(health, a + b)
  {
  }

  /** Health starting in [0, max] stays in [0, max] under any non-negative damage. */
  lemma DamageStaysInRange(health: real, maxHealth: real, amount: real)
    requires 0.0 <= health <= maxHealth && amount >= 0.0
    ensures 0.0 <= Damaged(health, amount) <= maxHealth
  {
  }

  /** Over non-negative ticks, two cooldown steps equal one step of the summed length. */
  lemma CooldownAccumulates(cooldown: real, a: real, b: real)
    requires a >= 0.0 && b >= 0.0
    ensures CooledDown(CooledDown(cooldown, a), b) == CooledDown(cooldown, a + b)
  {
  }

  /** After a shot resets the cooldown to `delay`, shooting is allowed again exactly when `elapsed` >= `delay`. */
  lemma CooldownGates(delay: real, elapsed: real)
    ensures CooledDown(delay, elapsed) <= 0.0 <==> elapsed >= delay
  {
  }

  /** An agent as the projectile-vs-agent pass sees it. */
  datatype Fighter = Fighter(pos: Vec, radius: real, health: real)
}

=== FILE: bot.dfy ===
/**
 * Bot.ts: the teammate AI. Each tick a bot counts its cooldown and state
 * timer down, re-picks the nearest enemy, switches state when the timer has
 * run out (follow, engage, cover or flank, chosen by range and a random
 * draw), and then steers according to its state.
 *
 * `Math.random` is replaced by the `Draws` a tick may consume; the
 * trigonometric strafe and flank points use the abstract `Host`.
 */
module Bots {
  import opened Optional
  import opened Geometry
  import opened Agent
  import opened Projectiles
  import opened Players
  import opened Enemies
  import opened Settings

  const BotRadius: real := 18.0
  const BotMaxHealth: real := 100.0
  const BotBaseSpeed: real := 200.0
  const BotShootDelay: real := 0.35
  const BotShotSpeed: real := 700.0
  const BotShotDamage: real := 20.0
  /** An enemy nearer than this makes an expired timer pick a combat state. */
  const EngageRange: real := 400.0
  /** shouldShoot fires only at a target nearer than this. */
  const FireRange: real := 500.0
  /** moveTowards does nothing within this distance of its target. */
  const DeadZone: real := 20.0

  datatype BotState = Follow | Engage | Cover | Flank

  /**
   * The values `Math.random()` would return during one tick: `choice` picks
   * the combat state, `side` the flank side, `jitterX` and `jitterY` the
   * follow offset. Each is in [0, 1) in the source; no property here needs that.
   */
  datatype Draws = Draws(choice: real, side: real, jitterX: real, jitterY: real)

  /** updateSpeed: the speed tier table over the base speed 200. */
  function TierSpeed(tier: SpeedTier): (s: real)
    ensures tier == Standard ==> s == 200.0
    ensures tier == Fast ==> s == 300.0
    ensures tier == VeryFast ==> s == 400.0
  {
    match tier
    case Fast => BotBaseSpeed * 1.5
    case VeryFast => BotBaseSpeed * 2.0
    case Standard => BotBaseSpeed
  }

  /** The AI's memory: state, countdown, and the cover and flank destinations last chosen. */
  datatype Mind = Mind(state: BotState, stateTimer: real, coverPosition: Option<Vec>, moveTarget: Option<Vec>)

  /** Everything a tick of Bot.update reads and writes on the bot itself. */
  datatype BotView = BotView(pos: Vec, speed: real, shootCooldown: real, mind: Mind)

  /** The bot after a tick, and the index of the enemy it now targets. */
  datatype BotTick = BotTick(bot: BotView, target: Option<nat>)

  /** The top-left corners of the obstacles, which findCoverPosition measures to. */
  function Corners(obstacles: seq<Obstacle>): (cs: seq<Vec>)
    ensures |cs| == |obstacles|
    ensures forall i :: 0 <= i < |obstacles| ==> cs[i] == Vec(obstacles[i].x, obstacles[i].y)
  {
    seq(|obstacles|, i requires 0 <= i < |obstacles| => Vec(obstacles[i].x, obstacles[i].y))
  }

  /** The spot 30 units left of an obstacle's left edge, at half its height. */
  function Behind(o: Obstacle): Vec
  {
    Vec(o.x - 30.0, o.y + o.height / 2.0)
  }

  /** findCoverPosition: 100 units left of the player with no obstacles, else behind the nearest-cornered obstacle. */
  function CoverPosition(self: Vec, player: Vec, obstacles: seq<Obstacle>): Vec
  {
    match Nearest(self, Corners(obstacles))
    case None => Vec(player.x - 100.0, player.y)
    case Some(k) => Behind(obstacles[k])
  }

  /**
   * With no obstacles the cover point is beside the player; otherwise it is
   * behind the first obstacle whose top-left corner is nearest (and such an
   * obstacle exists). The side the enemy is on plays no part.
   */
  lemma CoverPositionChoice(self: Vec, player: Vec, obstacles: seq<Obstacle>)
    ensures obstacles == [] ==> CoverPosition(self, player, obstacles) == Vec(player.x - 100.0, player.y)
    ensures obstacles != [] ==> exists k: nat :: IsFirstNearest(self, Corners(obstacles), k)
    ensures forall k: nat :: IsFirstNearest(self, Corners(obstacles), k) ==>
              CoverPosition(self, player, obstacles) == Behind(obstacles[k])
  {
    if obstacles != [] {
      NearestIsFirstMinimum(self, Corners(obstacles));
    }
    forall k: nat | IsFirstNearest(self, Corners(obstacles), k)
      ensures CoverPosition(self, player, obstacles) == Behind(obstacles[k])
    {
      NearestCharacterised(self, Corners(obstacles), k);
    }
  }

  /** calculateFlankPosition: 200 units from the enemy, a quarter turn to the side the draw picks. */
  function FlankPosition(self: Vec, enemy: Vec, host: Host, draws: Draws): Vec
  {
    var t := host.perpendicular(enemy.x - self.x, enemy.y - self.y, draws.side > 0.5);
    Vec(enemy.x + t.x * 200.0, enemy.y + t.y * 200.0)
  }

  /** followPlayer's destination: the player offset by up to 50 units on each axis. */
  function FollowPoint(player: Vec, draws: Draws): Vec
  {
    Vec(player.x + (draws.jitterX - 0.5) * 100.0, player.y + (draws.jitterY - 0.5) * 100.0)
  }

  /** engageEnemy's destination: 50 units from the bot, a quarter turn left of the line to the enemy. */
  function StrafePoint(self: Vec, enemy: Vec, host: Host): Vec
  {
    var t := host.perpendicular(enemy.x - self.x, enemy.y - self.y, true);
    Vec(self.x + t.x * 50.0, self.y + t.y * 50.0)
  }

  /**
   * updateAI's state machine, applied to the already decremented timer:
   * nothing changes while the timer runs; when it has run out the nearest
   * enemy and the draw pick the next state and its duration.
   */
  function Decide(self: Vec, mind: Mind, nearest: Option<Vec>, player: Vec, obstacles: seq<Obstacle>,
                  host: Host, draws: Draws): Mind
  {
    if mind.stateTimer > 0.0 then mind
    else if nearest.Some? && Closer(self, nearest.value, EngageRange) then
      if draws.choice < 0.5 then mind.(state := Engage, stateTimer := 3.0)
      else if draws.choice < 0.75 then
        mind.(state := Cover, stateTimer := 4.0, coverPosition := Some(CoverPosition(self, player, obstacles)))
      else mind.(state := Flank, stateTimer := 3.0, moveTarget := Some(FlankPosition(self, nearest.value, host, draws)))
    else mind.(state := Follow, stateTimer := 2.0)
  }

  /** moveTowards' unobstructed destination: the unit direction scaled by speed * speedMult * dt. */
  function SteerCandidate(self: Vec, target: Vec, speed: real, speedMult: real, dt: real, host: Host): Vec
  {
    var u := host.unit(target.x - self.x, target.y - self.y);
    Vec(self.x + u.x * speed * speedMult * dt, self.y + u.y * speed * speedMult * dt)
  }

  /** moveTowards: beyond the dead zone of 20 units, a per-axis move toward the target; within it, no move. */
  function Steer(self: Vec, target: Vec, speed: real, speedMult: real, dt: real, obstacles: seq<Obstacle>,
                 host: Host): Vec
  {
    if Farther(self, target, DeadZone) then
      Slide(obstacles, BotRadius, self, SteerCandidate(self, target, speed, speedMult, dt, host))
    else self
  }

  /**
   * Within the dead zone the bot stays put; each axis keeps its coordinate or
   * takes its candidate; a bot clear of every radius-expanded obstacle stays clear.
   */
  lemma SteerProperties(self: Vec, target: Vec, speed: real, speedMult: real, dt: real, obstacles: seq<Obstacle>,
                        host: Host)
    ensures var p := Steer(self, target, speed, speedMult, dt, obstacles, host);
      && (!Farther(self, target, DeadZone) ==> p == self)
      && (!Blocked(obstacles, self, BotRadius) ==> !Blocked(obstacles, p, BotRadius))
      && var c := SteerCandidate(self, target, speed, speedMult, dt, host);
         (p.x == self.x || p.x == c.x) && (p.y == self.y || p.y == c.y)
  {
    if Farther(self, target, DeadZone) {
      var c := SteerCandidate(self, target, speed, speedMult, dt, host);
      SlideAxes(obstacles, BotRadius, self, c);
      if !Blocked(obstacles, self, BotRadius) {
        SlideKeepsClear(obstacles, BotRadius, self, c);
      }
    }
  }

  /** The behaviour the (new) state selects, given the targeted enemy. */
  function Behave(self: Vec, speed: real, mind: Mind, enemy: Option<Vec>, player: Vec, dt: real,
                  obstacles: seq<Obstacle>, host: Host, draws: Draws): Vec
  {
    match mind.state
    case Follow => Steer(self, FollowPoint(player, draws), speed, 1.0, dt, obstacles, host)
    case Engage =>
      if enemy.None? then self
      else Steer(self, StrafePoint(self, enemy.value, host), speed, 0.3, dt, obstacles, host)
    case Cover =>
      if mind.coverPosition.Some? then Steer(self, mind.coverPosition.value, speed, 1.0, dt, obstacles, host)
      else Steer(self, FollowPoint(player, draws), speed, 1.0, dt, obstacles, host)
    case Flank =>
      if mind.moveTarget.None? then self
      else Steer(self, mind.moveTarget.value, speed, 1.0, dt, obstacles, host)
  }

  /** Whatever the state, a bot clear of every radius-expanded obstacle stays clear. */
  lemma BehaveStaysClear(self: Vec, speed: real, mind: Mind, enemy: Option<Vec>, player: Vec, dt: real,
                         obstacles: seq<Obstacle>, host: Host, draws: Draws)
    requires !Blocked(obstacles, self, BotRadius)
    ensures !Blocked(obstacles, Behave(self, speed, mind, enemy, player, dt, obstacles, host, draws), BotRadius)
  {
    match mind.state
    case Follow => SteerProperties(self, FollowPoint(player, draws), speed, 1.0, dt, obstacles, host);
    case Engage =>
      if enemy.Some? {
        SteerProperties(self, StrafePoint(self, enemy.value, host), speed, 0.3, dt, obstacles, host);
      }
    case Cover =>
      if mind.coverPosition.Some? {
        SteerProperties(self, mind.coverPosition.value, speed, 1.0, dt, obstacles, host);
      } else {
        SteerProperties(self, FollowPoint(player, draws), speed, 1.0, dt, obstacles, host);
      }
    case Flank =>
      if mind.moveTarget.Some? {
        SteerProperties(self, mind.moveTarget.value, speed, 1.0, dt, obstacles, host);
      }
  }

  /** The position of the enemy at index k, if any. */
  function At(enemies: seq<Vec>, k: Option<nat>): Option<Vec>
  {
    if k.Some? && k.value < |enemies| then Some(enemies[k.value]) else None
  }

  /** One tick of Bot.update on the bot's value, seeing enemies by position. */
  function BotStep(b: BotView, dt: real, player: Vec, enemies: seq<Vec>, obstacles: seq<Obstacle>,
                   host: Host, draws: Draws): BotTick
  {
    var k := Nearest(b.pos, enemies);
    var mind := Decide(b.pos, b.mind.(stateTimer := b.mind.stateTimer - dt), At(enemies, k), player, obstacles, host, draws);
    var pos := Behave(b.pos, b.speed, mind, At(enemies, k), player, dt, obstacles, host, draws);
    BotTick(BotView(pos, b.speed, CooledDown(b.shootCooldown, dt), mind), k)
  }

  /** shouldShoot on a bot's value and its target's position: a target within 500 units and no cooldown. */
  predicate WantsToShoot(b: BotView, aim: Option<Vec>)
  {
    aim.Some? && b.shootCooldown <= 0.0 && Closer(b.pos, aim.value, FireRange)
  }

  /** The projectile a bot fires at `aim`: from its position, at speed 700, with damage 20. */
  function BotShot(b: BotView, aim: Vec, host: Host): Shot
  {
    Shot(b.pos, Velocity(host, b.pos, aim, BotShotSpeed), ByBot, BotShotDamage, ProjectileRadius)
  }

  /**
   * A bot that has just fired (cooldown reset to 0.35) wants to shoot again
   * only once at least 0.35 s have been counted down, and only at a target.
   */
  lemma RefireAfterDelay(b: BotView, aim: Option<Vec>, elapsed: real)
    ensures WantsToShoot(b.(shootCooldown := CooledDown(BotShootDelay, elapsed)), aim) ==>
              elapsed >= BotShootDelay && aim.Some?
    ensures elapsed >= BotShootDelay && aim.Some? && Closer(b.pos, aim.value, FireRange) ==>
              WantsToShoot(b.(shootCooldown := CooledDown(BotShootDelay, elapsed)), aim)
  {
    CooldownGates(BotShootDelay, elapsed);
  }

  /** The target is the first enemy at minimal distance, and there is none exactly when there are no enemies. */
  lemma BotTargetsFirstNearest(b: BotView, dt: real, player: Vec, enemies: seq<Vec>, obstacles: seq<Obstacle>,
                               host: Host, draws: Draws)
    ensures var t := BotStep(b, dt, player, enemies, obstacles, host, draws).target;
      && (t.None? <==> enemies == [])
      && (t.Some? ==> IsFirstNearest(b.pos, enemies, t.value))
  {
    if enemies != [] {
      NearestIsFirstMinimum(b.pos, enemies);
    }
  }

  /** The cooldown counts down to no less than 0, the timer by exactly dt, and the speed is kept. */
  lemma BotStepCountdowns(b: BotView, dt: real, player: Vec, enemies: seq<Vec>, obstacles: seq<Obstacle>,
                          host: Host, draws: Draws)
    ensures var n := BotStep(b, dt, player, enemies, obstacles, host, draws).bot;
      && n.shootCooldown == CooledDown(b.shootCooldown, dt) && n.shootCooldown >= 0.0
      && n.speed == b.speed
      && (b.mind.stateTimer - dt > 0.0 ==> n.mind.stateTimer == b.mind.stateTimer - dt)
      && (b.mind.stateTimer - dt <= 0.0 ==> n.mind.stateTimer in {2.0, 3.0, 4.0})
  {
  }

  /** While the decremented timer is positive, state, cover point and flank target are kept. */
  lemma BotStateSticks(b: BotView, dt: real, player: Vec, enemies: seq<Vec>, obstacles: seq<Obstacle>,
                       host: Host, draws: Draws)
    requires b.mind.stateTimer - dt > 0.0
    ensures var m := BotStep(b, dt, player, enemies, obstacles, host, draws).bot.mind;
      m.state == b.mind.state && m.coverPosition == b.mind.coverPosition && m.moveTarget == b.mind.moveTarget
  {
  }

  /** Some enemy is within EngageRange of p. */
  predicate EnemyInRange(p: Vec, enemies: seq<Vec>)
  {
    exists j :: 0 <= j < |enemies| && Closer(p, enemies[j], EngageRange)
  }

  /**
   * When the timer runs out: with no enemy within 400 the bot follows for 2 s;
   * otherwise a draw below 0.5 engages for 3 s, below 0.75 takes cover for 4 s
   * at the cover point, and anything else flanks for 3 s.
   */
  lemma {:induction false} BotTransitions(b: BotView, dt: real, player: Vec, enemies: seq<Vec>,
                                          obstacles: seq<Obstacle>, host: Host, draws: Draws)
    requires b.mind.stateTimer - dt <= 0.0
    ensures var m := BotStep(b, dt, player, enemies, obstacles, host, draws).bot.mind;
      && (!EnemyInRange(b.pos, enemies) ==>
            && m.state == Follow && m.stateTimer == 2.0
            && m.coverPosition == b.mind.coverPosition && m.moveTarget == b.mind.moveTarget)
      && (EnemyInRange(b.pos, enemies) && draws.choice < 0.5 ==>
            && m.state == Engage && m.stateTimer == 3.0
            && m.coverPosition == b.mind.coverPosition && m.moveTarget == b.mind.moveTarget)
      && (EnemyInRange(b.pos, enemies) && 0.5 <= draws.choice < 0.75 ==>
            && m.state == Cover && m.stateTimer == 4.0
            && m.coverPosition == Some(CoverPosition(b.pos, player, obstacles)) && m.moveTarget == b.mind.moveTarget)
      && (EnemyInRange(b.pos, enemies) && 0.75 <= draws.choice ==>
            m.state == Flank && m.stateTimer == 3.0 && m.coverPosition == b.mind.coverPosition)
  {
    var k := Nearest(b.pos, enemies);
    if enemies != [] {
      NearestIsFirstMinimum(b.pos, enemies);
      if EnemyInRange(b.pos, enemies) {
        var j :| 0 <= j < |enemies| && Closer(b.pos, enemies[j], EngageRange);
        assert DistSq(b.pos, enemies[k.value]) <= DistSq(b.pos, enemies[j]);
        assert Closer(b.pos, enemies[k.value], EngageRange);
      } else {
        assert !Closer(b.pos, enemies[k.value], EngageRange);
      }
    }
  }

  /**
   * A switch to flank sets the flank target from the enemy the tick targets,
   * which BotTargetsFirstNearest shows is the first nearest one.
   */
  lemma BotFlankTarget(b: BotView, dt: real, player: Vec, enemies: seq<Vec>, obstacles: seq<Obstacle>,
                       host: Host, draws: Draws)
    requires b.mind.stateTimer - dt <= 0.0
    requires EnemyInRange(b.pos, enemies) && 0.75 <= draws.choice
    ensures var t := BotStep(b, dt, player, enemies, obstacles, host, draws);
      && t.target.Some? && t.target.value < |enemies|
      && t.bot.mind.moveTarget == Some(FlankPosition(b.pos, enemies[t.target.value], host, draws))
  {
    var k := Nearest(b.pos, enemies);
    NearestIsFirstMinimum(b.pos, enemies);
    var j :| 0 <= j < |enemies| && Closer(b.pos, enemies[j], EngageRange);
    assert DistSq(b.pos, enemies[k.value]) <= DistSq(b.pos, enemies[j]);
    assert Closer(b.pos, enemies[k.value], EngageRange);
  }

  /** A bot clear of every radius-expanded obstacle is still clear after a tick, whatever its state. */
  lemma BotStaysClear(b: BotView, dt: real, player: Vec, enemies: seq<Vec>, obstacles: seq<Obstacle>,
                      host: Host, draws: Draws)
    requires !Blocked(obstacles, b.pos, BotRadius)
    ensures !Blocked(obstacles, BotStep(b, dt, player, enemies, obstacles, host, draws).bot.pos, BotRadius)
  {
    var k := Nearest(b.pos, enemies);
    var mind := Decide(b.pos, b.mind.(stateTimer := b.mind.stateTimer - dt), At(enemies, k), player, obstacles, host, draws);
    BehaveStaysClear(b.pos, b.speed, mind, At(enemies, k), player, dt, obstacles, host, draws);
  }

  /** A bot's turn in the game loop: its tick and the shot it fired, if any. */
  datatype BotTurn = BotTurn(bot: BotView, target: Option<nat>, shot: Option<Shot>)

  /** The game loop fires when shouldShoot holds and the aim is not the bot's own position. */
  predicate Fires(b: BotView, aim: Option<Vec>)
  {
    WantsToShoot(b, aim) && DistSq(b.pos, aim.value) > 0.0
  }

  /** The tick, then shouldShoot and shoot: a shot at the targeted enemy restarts the cooldown. */
  function TakeTurn(b: BotView, dt: real, player: Vec, enemies: seq<Vec>, obstacles: seq<Obstacle>,
                    host: Host, draws: Draws): BotTurn
  {
    var t := BotStep(b, dt, player, enemies, obstacles, host, draws);
    var aim := At(enemies, t.target);
    if Fires(t.bot, aim) then BotTurn(t.bot.(shootCooldown := BotShootDelay), t.target, Some(BotShot(t.bot, aim.value, host)))
    else BotTurn(t.bot, t.target, None)
  }

  /**
   * A bot fires in its turn exactly when there is an enemy, its cooldown has
   * run out over the tick, and the first nearest enemy (judged from where the
   * bot stood) is within 500 units of where it now stands but not on that
   * spot. The shot flies from there toward that enemy, and the cooldown
   * restarts at 0.35; otherwise the turn is the tick.
   */
  lemma TurnFiresAtNearest(b: BotView, dt: real, player: Vec, enemies: seq<Vec>, obstacles: seq<Obstacle>,
                           host: Host, draws: Draws)
    ensures var t, u := BotStep(b, dt, player, enemies, obstacles, host, draws), TakeTurn(b, dt, player, enemies, obstacles, host, draws);
      && u.target == t.target
      && (enemies == [] ==> u.shot.None?)
      && (forall k: nat :: IsFirstNearest(b.pos, enemies, k) ==>
            && (u.shot.Some? <==>
                  b.shootCooldown <= dt && Closer(t.bot.pos, enemies[k], FireRange) && DistSq(t.bot.pos, enemies[k]) > 0.0)
            && (u.shot.Some? ==> u.shot.value == BotShot(t.bot, enemies[k], host)))
      && u.bot == (if u.shot.Some? then t.bot.(shootCooldown := BotShootDelay) else t.bot)
  {
    var t := BotStep(b, dt, player, enemies, obstacles, host, draws);
    BotTargetsFirstNearest(b, dt, player, enemies, obstacles, host, draws);
    forall k: nat | IsFirstNearest(b.pos, enemies, k)
      ensures t.target == Some(k)
    {
      NearestCharacterised(b.pos, enemies, k);
    }
  }

  class Bot {
    var x: real
    var y: real
    const radius: real := BotRadius
    var health: real
    const maxHealth: real := BotMaxHealth
    const name: string
    const baseSpeed: real := BotBaseSpeed
    var speed: real
    var shootCooldown: real
    const shootDelay: real := BotShootDelay
    var targetEnemy: Enemy?
    var moveTarget: Option<Vec>
    var coverPosition: Option<Vec>
    var state: BotState
    var stateTimer: real
    var settings: GameSettings

    constructor (x: real, y: real, name: string, settings: GameSettings)
      ensures Position() == Vec(x, y) && this.name == name && health == BotMaxHealth
      ensures View() == BotView(Vec(x, y), TierSpeed(settings.movementSpeed), 0.0, Mind(Follow, 0.0, None, None))
      ensures targetEnemy == null && this.settings == settings
    {
      this.x := x;
      this.y := y;
      this.name := name;
      health := BotMaxHealth;
      shootCooldown := 0.0;
      targetEnemy := null;
      moveTarget := None;
      coverPosition := None;
      state := Follow;
      stateTimer := 0.0;
      this.settings := settings;
      speed := TierSpeed(settings.movementSpeed);
    }

    function Position(): Vec
      reads this
    {
      Vec(x, y)
    }

    function AsFighter(): Fighter
      reads this
    {
      Fighter(Position(), radius, health)
    }

    function MindView(): Mind
      reads this
    {
      Mind(state, stateTimer, coverPosition, moveTarget)
    }

    function View(): BotView
      reads this
    {
      BotView(Position(), speed, shootCooldown, MindView())
    }

    /** The targeted enemy's position, if there is one. */
    function Aim(): Option<Vec>
      reads this, targetEnemy
    {
      if targetEnemy == null then None else Some(targetEnemy.Position())
    }

    /** The speed agrees with the stored settings. */
    predicate SpeedMatches()
      reads this
    {
      speed == TierSpeed(settings.movementSpeed)
    }

    /** updateSettings / updateSpeed: store the settings and re-derive the speed from the tier table. */
    method UpdateSettings(s: GameSettings)
      modifies this`settings, this`speed
      ensures settings == s && SpeedMatches()
      ensures speed == 200.0 || speed == 300.0 || speed == 400.0
      ensures old(SpeedMatches()) && old(settings) == s ==> speed == old(speed)
    {
      settings := s;
      match settings.movementSpeed
      case Fast => speed := baseSpeed * 1.5;
      case VeryFast => speed := baseSpeed * 2.0;
      case Standard => speed := baseSpeed;
    }

    predicate CheckCollision(px: real, py: real, obstacles: seq<Obstacle>)
    {
      Blocked(obstacles, Vec(px, py), radius)
    }

    /** Cooldown and timer countdown, AI decision, then the behaviour of the (new) state. */
    method Update(dt: real, player: Player, enemies: seq<Enemy>, obstacles: seq<Obstacle>, host: Host, draws: Draws)
      modifies this`x, this`y, this`shootCooldown, this`stateTimer, this`state, this`coverPosition,
               this`moveTarget, this`targetEnemy
      ensures var t := BotStep(old(View()), dt, player.Position(), Positions(enemies), obstacles, host, draws);
        && View() == t.bot
        && targetEnemy == (if t.target.None? then null else enemies[t.target.value])
    {
      shootCooldown := CooledDown(shootCooldown, dt);
      stateTimer := stateTimer - dt;
      UpdateAI(player, enemies, obstacles, host, draws);
      Act(dt, player, obstacles, host, draws);
    }

    /** The switch on the state in Bot.update. */
    method Act(dt: real, player: Player, obstacles: seq<Obstacle>, host: Host, draws: Draws)
      modifies this`x, this`y
      ensures Position() == Behave(old(Position()), speed, MindView(), Aim(), player.Position(), dt, obstacles, host, draws)
    {
      match state
      case Follow => FollowPlayer(dt, player, obstacles, host, draws);
      case Engage => EngageEnemy(dt, obstacles, host);
      case Cover => ProvideCover(dt, player, obstacles, host, draws);
      case Flank => FlankEnemy(dt, obstacles, host);
    }

    /** updateAI: the nearest-enemy scan, then the timer-driven state machine. */
    method UpdateAI(player: Player, enemies: seq<Enemy>, obstacles: seq<Obstacle>, host: Host, draws: Draws)
      modifies this`targetEnemy, this`state, this`stateTimer, this`coverPosition, this`moveTarget
      ensures var k := Nearest(Position(), Positions(enemies));
        && targetEnemy == (if k.None? then null else enemies[k.value])
        && MindView() == Decide(Position(), old(MindView()), At(Positions(enemies), k), player.Position(),
                                obstacles, host, draws)
    {
      var nearest, minDist := FindNearest(enemies);
      targetEnemy := nearest;
      Transition(nearest, minDist, player.Position(), obstacles, host, draws);
    }

    /** The state machine of updateAI, once the nearest enemy and its squared distance are known. */
    method Transition(nearest: Enemy?, minDist: real, player: Vec, obstacles: seq<Obstacle>, host: Host, draws: Draws)
      requires nearest != null ==> minDist == DistSq(Position(), nearest.Position())
      modifies this`state, this`stateTimer, this`coverPosition, this`moveTarget
      ensures MindView() == Decide(Position(), old(MindView()), if nearest == null then None else Some(nearest.Position()),
                                   player, obstacles, host, draws)
    {
      if stateTimer <= 0.0 {
        if nearest != null && minDist < EngageRange * EngageRange {
          var rand := draws.choice;
          if rand < 0.5 {
            state := Engage;
            stateTimer := 3.0;
          } else if rand < 0.75 {
            state := Cover;
            coverPosition := Some(CoverPosition(Position(), player, obstacles));
            stateTimer := 4.0;
          } else {
            state := Flank;
            moveTarget := Some(FlankPosition(Position(), nearest.Position(), host, draws));
            stateTimer := 3.0;
          }
        } else {
          state := Follow;
          stateTimer := 2.0;
        }
      }
    }

    /** The min-tracking scan over the enemies; no candidate yet stands for an infinite minimum. */
    method FindNearest(enemies: seq<Enemy>) returns (nearest: Enemy?, minDist: real)
      ensures var k := Nearest(Position(), Positions(enemies));
        && nearest == (if k.None? then null else enemies[k.value])
        && (nearest != null ==> minDist == DistSq(Position(), nearest.Position()))
    {
      var self := Position();
      ghost var ps := Positions(enemies);
      nearest := null;
      minDist := 0.0;
      var i := 0;
      while i < |enemies|
        invariant 0 <= i <= |enemies|
        invariant Nearest(self, ps[..i]).None? <==> nearest == null
        invariant Nearest(self, ps[..i]).Some? ==>
                    nearest == enemies[Nearest(self, ps[..i]).value] && minDist == DistSq(self, nearest.Position())
      {
        assert ps[..i + 1][..i] == ps[..i];
        var dist := DistSq(self, enemies[i].Position());
        if nearest == null || dist < minDist {
          minDist := dist;
          nearest := enemies[i];
        }
        i := i + 1;
      }
      assert ps[..|enemies|] == ps;
    }

    method FollowPlayer(dt: real, player: Player, obstacles: seq<Obstacle>, host: Host, draws: Draws)
      modifies this`x, this`y
      ensures Position() == Steer(old(Position()), FollowPoint(player.Position(), draws), speed, 1.0, dt, obstacles, host)
    {
      var offsetX := (draws.jitterX - 0.5) * 100.0;
      var offsetY := (draws.jitterY - 0.5) * 100.0;
      MoveTowards(player.x + offsetX, player.y + offsetY, dt, obstacles, host, 1.0);
    }

    method EngageEnemy(dt: real, obstacles: seq<Obstacle>, host: Host)
      modifies this`x, this`y
      ensures targetEnemy == null ==> Position() == old(Position())
      ensures targetEnemy != null ==>
                Position() == Steer(old(Position()), StrafePoint(old(Position()), targetEnemy.Position(), host), speed, 0.3,
                                    dt, obstacles, host)
    {
      if targetEnemy == null {
        return;
      }
      var t := host.perpendicular(targetEnemy.x - x, targetEnemy.y - y, true);
      var strafeX := x + t.x * 50.0;
      var strafeY := y + t.y * 50.0;
      MoveTowards(strafeX, strafeY, dt, obstacles, host, 0.3);
    }

    method ProvideCover(dt: real, player: Player, obstacles: seq<Obstacle>, host: Host, draws: Draws)
      modifies this`x, this`y
      ensures coverPosition.Some? ==> Position() == Steer(old(Position()), coverPosition.value, speed, 1.0, dt, obstacles, host)
      ensures coverPosition.None? ==>
                Position() == Steer(old(Position()), FollowPoint(player.Position(), draws), speed, 1.0, dt, obstacles, host)
    {
      if coverPosition.Some? {
        MoveTowards(coverPosition.value.x, coverPosition.value.y, dt, obstacles, host, 1.0);
      } else {
        FollowPlayer(dt, player, obstacles, host, draws);
      }
    }

    method FlankEnemy(dt: real, obstacles: seq<Obstacle>, host: Host)
      modifies this`x, this`y
      ensures moveTarget.None? ==> Position() == old(Position())
      ensures moveTarget.Some? ==> Position() == Steer(old(Position()), moveTarget.value, speed, 1.0, dt, obstacles, host)
    {
      if moveTarget.None? {
        return;
      }
      MoveTowards(moveTarget.value.x, moveTarget.value.y, dt, obstacles, host, 1.0);
    }

    /** moveTowards: nothing within the dead zone, else the per-axis move toward the target. */
    method MoveTowards(targetX: real, targetY: real, dt: real, obstacles: seq<Obstacle>, host: Host, speedMult: real)
      modifies this`x, this`y
      ensures Position() == Steer(old(Position()), Vec(targetX, targetY), speed, speedMult, dt, obstacles, host)
    {
      var dx := targetX - x;
      var dy := targetY - y;
      if dx * dx + dy * dy > DeadZone * DeadZone {
        var u := host.unit(dx, dy);
        var moveX := x + u.x * speed * speedMult * dt;
        var moveY := y + u.y * speed * speedMult * dt;
        assert Vec(moveX, moveY) == SteerCandidate(Position(), Vec(targetX, targetY), speed, speedMult, dt, host);
        MoveAxes(moveX, moveY, obstacles);
      }
    }

    /** Take the new x if that spot is clear, then the new y if the spot at the current x is clear. */
    method MoveAxes(newX: real, newY: real, obstacles: seq<Obstacle>)
      modifies this`x, this`y
      ensures Position() == Slide(obstacles, radius, old(Position()), Vec(newX, newY))
    {
      if !CheckCollision(newX, y, obstacles) {
        x := newX;
      }
      if !CheckCollision(x, newY, obstacles) {
        y := newY;
      }
    }

    /** shouldShoot: a target, no cooldown, and the target within 500 units. */
    function ShouldShoot(): (b: bool)
      reads this, targetEnemy
      ensures b <==> WantsToShoot(View(), Aim())
    {
      targetEnemy != null && shootCooldown <= 0.0 && Closer(Position(), targetEnemy.Position(), FireRange)
    }

    /**
     * Fire at the targeted enemy unless there is none or the cooldown runs.
     * The source divides by the aim length without a zero guard, so the target
     * must not stand on the bot's position.
     */
    method Shoot(host: Host) returns (p: Projectile?)
      requires targetEnemy != null ==> DistSq(Position(), targetEnemy.Position()) > 0.0
      modifies this`shootCooldown
      ensures p == null <==> old(targetEnemy) == null || old(shootCooldown) > 0.0
      ensures p == null ==> shootCooldown == old(shootCooldown)
      ensures p != null ==> fresh(p) && shootCooldown == BotShootDelay
      ensures p != null ==> p.View() == BotShot(View(), targetEnemy.Position(), host)
    {
      if targetEnemy == null || shootCooldown > 0.0 {
        return null;
      }
      shootCooldown := shootDelay;
      var v := Velocity(host, Position(), targetEnemy.Position(), BotShotSpeed);
      p := new Projectile(x, y, v.x, v.y, ByBot, BotShotDamage);
    }

    method TakeDamage(amount: real)
      modifies this`health
      ensures health == Damaged(old(health), amount)
    {
      health := Damaged(health, amount);
    }
  }

  function BotPositions(bs: seq<Bot>): (ps: seq<Vec>)
    reads bs
    ensures |ps| == |bs| && forall i :: 0 <= i < |bs| ==> ps[i] == bs[i].Position()
  {
    seq(|bs|, i requires 0 <= i < |bs| reads bs => bs[i].Position())
  }

  function BotFighters(bs: seq<Bot>): (fs: seq<Fighter>)
    reads bs
    ensures |fs| == |bs| && forall i :: 0 <= i < |bs| ==> fs[i] == bs[i].AsFighter()
  {
    seq(|bs|, i requires 0 <= i < |bs| reads bs => bs[i].AsFighter())
  }

  function BotViews(bs: seq<Bot>): (vs: seq<BotView>)
    reads bs
    ensures |vs| == |bs| && forall i :: 0 <= i < |bs| ==> vs[i] == bs[i].View()
  {
    seq(|bs|, i requires 0 <= i < |bs| reads bs => bs[i].View())
  }
}

=== FILE: enemy.dfy ===
/**
 * Enemy.ts: the hostile agent. Each tick it picks the nearest target among
 * the player and the bots, chases it from beyond 300 units or strafes around
 * it within 300, and, off cooldown, shoots at the player.
 *
 * The bots are seen only through their positions (all that Enemy.update
 * reads of them).
 */
module Enemies {
  import opened Optional
  import opened Geometry
  import opened Agent
  import opened Projectiles
  import opened Players

  const EnemyRadius: real := 18.0
  const EnemyMaxHealth: real := 80.0
  const EnemySpeed: real := 120.0
  const EnemyShootDelay: real := 1.2
  const EnemyShotSpeed: real := 500.0
  const EnemyShotDamage: real := 15.0
  /** Beyond this distance the enemy chases; within it, it strafes. */
  const ChaseRange: real := 300.0

  /** The candidates in scan order: the player first, then the bots. */
  function Candidates(player: Vec, bots: seq<Vec>): seq<Vec> { [player] + bots }

  /** Index into Candidates of the chosen target: 0 is the player, k > 0 is bots[k - 1]. */
  function TargetIndex(self: Vec, player: Vec, bots: seq<Vec>): (k: nat)
    ensures k <= |bots|
  {
    Nearest(self, Candidates(player, bots)).value
  }

  function Target(self: Vec, player: Vec, bots: seq<Vec>): Vec
  {
    Candidates(player, bots)[TargetIndex(self, player, bots)]
  }

  /**
   * The target is the player unless some bot is strictly closer; otherwise it
   * is the first bot strictly closer than the player and than every earlier
   * bot, and no farther than any bot.
   */
  lemma TargetChoice(self: Vec, player: Vec, bots: seq<Vec>)
    ensures TargetIndex(self, player, bots) == 0 <==>
              forall j :: 0 <= j < |bots| ==> DistSq(self, player) <= DistSq(self, bots[j])
    ensures TargetIndex(self, player, bots) > 0 ==>
              var b := TargetIndex(self, player, bots) - 1;
              && DistSq(self, bots[b]) < DistSq(self, player)
              && (forall j :: 0 <= j < b ==> DistSq(self, bots[b]) < DistSq(self, bots[j]))
              && (forall j :: 0 <= j < |bots| ==> DistSq(self, bots[b]) <= DistSq(self, bots[j]))
  {
    var c := Candidates(player, bots);
    NearestIsFirstMinimum(self, c);
    assert forall j :: 0 <= j < |bots| ==> c[j + 1] == bots[j];
    var k := TargetIndex(self, player, bots);
    if forall j :: 0 <= j < |bots| ==> DistSq(self, player) <= DistSq(self, bots[j]) {
      assert IsFirstNearest(self, c, 0);
      NearestCharacterised(self, c, 0);
    }
  }

  /**
   * The enemy's new position: beyond ChaseRange it moves toward the target at
   * full speed, otherwise perpendicular to the line of sight at half speed;
   * either way per axis against the obstacles.
   */
  function EnemyCandidate(self: Vec, dt: real, target: Vec, host: Host): Vec
  {
    var d := Sub(target, self);
    if Farther(self, target, ChaseRange) then
      var u := host.unit(d.x, d.y);
      Vec(self.x + u.x * EnemySpeed * dt, self.y + u.y * EnemySpeed * dt)
    else
      var t := host.perpendicular(d.x, d.y, true);
      Vec(self.x + t.x * EnemySpeed * dt * 0.5, self.y + t.y * EnemySpeed * dt * 0.5)
  }

  function EnemyMotion(self: Vec, dt: real, target: Vec, obstacles: seq<Obstacle>, host: Host): Vec
  {
    Slide(obstacles, EnemyRadius, self, EnemyCandidate(self, dt, target, host))
  }

  /**
   * Chase iff the target is more than ChaseRange away: then the step follows
   * the unit direction to the target at full speed; at exactly ChaseRange or
   * closer it follows the perpendicular at half speed.
   */
  lemma ChaseOrStrafe(self: Vec, dt: real, target: Vec, host: Host)
    ensures var d, c := Sub(target, self), EnemyCandidate(self, dt, target, host);
            var u, t := host.unit(d.x, d.y), host.perpendicular(d.x, d.y, true);
            && (DistSq(self, target) > ChaseRange * ChaseRange ==>
                  c == Vec(self.x + u.x * EnemySpeed * dt, self.y + u.y * EnemySpeed * dt))
            && (DistSq(self, target) <= ChaseRange * ChaseRange ==>
                  c == Vec(self.x + t.x * EnemySpeed * dt * 0.5, self.y + t.y * EnemySpeed * dt * 0.5))
  {
    assert Farther(self, target, ChaseRange) <==> DistSq(self, target) > ChaseRange * ChaseRange;
  }

  /** An enemy clear of every radius-expanded obstacle stays clear. */
  lemma EnemyStaysClear(self: Vec, dt: real, target: Vec, obstacles: seq<Obstacle>, host: Host)
    requires !Blocked(obstacles, self, EnemyRadius)
    ensures !Blocked(obstacles, EnemyMotion(self, dt, target, obstacles, host), EnemyRadius)
  {
    SlideKeepsClear(obstacles, EnemyRadius, self, EnemyCandidate(self, dt, target, host));
  }

  /** The state of an enemy that a turn changes: its position and its shoot cooldown. */
  datatype EnemyView = EnemyView(pos: Vec, shootCooldown: real)

  /** An enemy's turn in the game loop: where it ends up and the shot it fired, if any. */
  datatype EnemyTurn = EnemyTurn(enemy: EnemyView, shot: Option<Shot>)

  /** The projectile an enemy at `from` fires at the player: speed 500, damage 15. */
  function EnemyShot(from: Vec, player: Vec, host: Host): Shot
  {
    Shot(from, Velocity(host, from, player, EnemyShotSpeed), ByEnemy, EnemyShotDamage, ProjectileRadius)
  }

  /** Update, then canShoot and shoot: off cooldown, and with the player not on its spot, it fires at the player. */
  function EnemyTakeTurn(e: EnemyView, dt: real, player: Vec, bots: seq<Vec>, obstacles: seq<Obstacle>,
                         host: Host): EnemyTurn
  {
    var pos := EnemyMotion(e.pos, dt, Target(e.pos, player, bots), obstacles, host);
    var cooldown := CooledDown(e.shootCooldown, dt);
    if cooldown <= 0.0 && DistSq(pos, player) > 0.0 then EnemyTurn(EnemyView(pos, EnemyShootDelay), Some(EnemyShot(pos, player, host)))
    else EnemyTurn(EnemyView(pos, cooldown), None)
  }

  /**
   * An enemy fires in its turn exactly when its cooldown is at most the tick
   * and the player is not on the spot it moved to; the shot aims at the
   * player whichever target it moved against, and the bots only steer its
   * motion. A shot restarts the cooldown at 1.2, and the next one needs 1.2 s
   * more of ticks.
   */
  lemma EnemyFiresAtPlayer(e: EnemyView, dt: real, player: Vec, bots: seq<Vec>, obstacles: seq<Obstacle>, host: Host)
    ensures var u := EnemyTakeTurn(e, dt, player, bots, obstacles, host);
      && u.enemy.pos == EnemyMotion(e.pos, dt, Target(e.pos, player, bots), obstacles, host)
      && (u.shot.Some? <==> e.shootCooldown <= dt && DistSq(u.enemy.pos, player) > 0.0)
      && (u.shot.Some? ==> u.shot.value == EnemyShot(u.enemy.pos, player, host) && u.enemy.shootCooldown == EnemyShootDelay)
      && (u.shot.None? ==> u.enemy.shootCooldown == CooledDown(e.shootCooldown, dt))
    ensures forall others: seq<Vec> ::
              EnemyTakeTurn(e, dt, player, others, obstacles, host).enemy.pos == EnemyTakeTurn(e, dt, player, bots, obstacles, host).enemy.pos ==>
              EnemyTakeTurn(e, dt, player, others, obstacles, host).shot == EnemyTakeTurn(e, dt, player, bots, obstacles, host).shot
  {
    CooldownGates(e.shootCooldown, dt);
  }

  class Enemy {
    var x: real
    var y: real
    const radius: real := EnemyRadius
    var health: real
    const maxHealth: real := EnemyMaxHealth
    const speed: real := EnemySpeed
    var shootCooldown: real
    const shootDelay: real := EnemyShootDelay

    constructor (x: real, y: real)
      ensures Position() == Vec(x, y) && health == EnemyMaxHealth && shootCooldown == 0.0
    {
      this.x := x;
      this.y := y;
      health := EnemyMaxHealth;
      shootCooldown := 0.0;
    }

    function Position(): Vec
      reads this
    {
      Vec(x, y)
    }

    function AsFighter(): Fighter
      reads this
    {
      Fighter(Position(), radius, health)
    }

    function View(): EnemyView
      reads this
    {
      EnemyView(Position(), shootCooldown)
    }

    predicate CheckCollision(px: real, py: real, obstacles: seq<Obstacle>)
    {
      Blocked(obstacles, Vec(px, py), radius)
    }

    /** Cooldown countdown, nearest-target scan (player first, then bots), then chase or strafe. */
    method Update(dt: real, player: Player, bots: seq<Vec>, obstacles: seq<Obstacle>, host: Host)
      modifies this`x, this`y, this`shootCooldown
      ensures shootCooldown == CooledDown(old(shootCooldown), dt)
      ensures Position() == EnemyMotion(old(Position()), dt, Target(old(Position()), player.Position(), bots), obstacles, host)
    {
      shootCooldown := CooledDown(shootCooldown, dt);

      var target, minDist := FindTarget(player.Position(), bots);
      var targetX, targetY := target.x, target.y;
      ghost var self := Position();
      if !(ChaseRange * ChaseRange >= minDist) {
        var dx, dy := targetX - x, targetY - y;
        assert Farther(self, target, ChaseRange) && Sub(target, self) == Vec(dx, dy);
        var u := host.unit(dx, dy);
        var newX := x + u.x * speed * dt;
        var newY := y + u.y * speed * dt;
        assert Vec(newX, newY) == EnemyCandidate(self, dt, target, host);
        MoveAxes(newX, newY, obstacles);
      } else {
        var t := host.perpendicular(targetX - x, targetY - y, true);
        var strafeX := x + t.x * speed * dt * 0.5;
        var strafeY := y + t.y * speed * dt * 0.5;
        assert Vec(strafeX, strafeY) == EnemyCandidate(self, dt, target, host);
        MoveAxes(strafeX, strafeY, obstacles);
      }
    }

    /** The min-tracking scan of Enemy.update: start from the player, replace on a strictly smaller distance. */
    method FindTarget(player: Vec, bots: seq<Vec>) returns (target: Vec, minDist: real)
      ensures target == Target(Position(), player, bots)
      ensures minDist == DistSq(Position(), target)
    {
      var self := Position();
      ghost var c := Candidates(player, bots);
      target := player;
      minDist := DistSq(self, player);
      assert c[..1] == [player];
      var i := 0;
      while i < |bots|
        invariant 0 <= i <= |bots|
        invariant Nearest(self, c[..i + 1]).Some?
        invariant target == c[Nearest(self, c[..i + 1]).value]
        invariant minDist == DistSq(self, target)
      {
        assert c[..i + 2][..i + 1] == c[..i + 1];
        assert c[i + 1] == bots[i];
        var dist := DistSq(self, bots[i]);
        if dist < minDist {
          minDist := dist;
          target := bots[i];
        }
        i := i + 1;
      }
      assert c[..|bots| + 1] == c;
    }

    /** Take the new x if that spot is clear, then the new y if the spot at the current x is clear. */
    method MoveAxes(newX: real, newY: real, obstacles: seq<Obstacle>)
      modifies this`x, this`y
      ensures Position() == Slide(obstacles, radius, old(Position()), Vec(newX, newY))
    {
      if !CheckCollision(newX, y, obstacles) {
        x := newX;
      }
      if !CheckCollision(x, newY, obstacles) {
        y := newY;
      }
    }

    predicate CanShoot()
      reads this
    {
      shootCooldown <= 0.0
    }

    /**
     * Fire at the player (not at the chosen target) unless on cooldown. The
     * source divides by the aim length without a zero guard, so the player
     * must not stand on the enemy's position.
     */
    method Shoot(player: Player, host: Host) returns (p: Projectile?)
      requires DistSq(Position(), player.Position()) > 0.0
      modifies this`shootCooldown
      ensures p == null <==> old(shootCooldown) > 0.0
      ensures p == null ==> shootCooldown == old(shootCooldown)
      ensures p != null ==> fresh(p) && shootCooldown == EnemyShootDelay
      ensures p != null ==> p.View() == EnemyShot(Position(), player.Position(), host)
    {
      if !CanShoot() {
        return null;
      }
      shootCooldown := shootDelay;
      var v := Velocity(host, Position(), player.Position(), EnemyShotSpeed);
      p := new Projectile(x, y, v.x, v.y, ByEnemy, EnemyShotDamage);
    }

    method TakeDamage(amount: real)
      modifies this`health
      ensures health == Damaged(old(health), amount)
    {
      health := Damaged(health, amount);
    }
  }

  /** The positions of a row of enemies, index by index (`Bots.BotPositions` is the same over the separate Bot class). */
  function Positions(es: seq<Enemy>): (ps: seq<Vec>)
    reads es
    ensures |ps| == |es| && forall i :: 0 <= i < |es| ==> ps[i] == es[i].Position()
  {
    seq(|es|, i requires 0 <= i < |es| reads es => es[i].Position())
  }

  /** The fighters of a row of enemies, index by index (`Bots.BotFighters` is the same over the separate Bot class). */
  function Fighters(es: seq<Enemy>): (fs: seq<Fighter>)
    reads es
    ensures |fs| == |es| && forall i :: 0 <= i < |es| ==> fs[i] == es[i].AsFighter()
  {
    seq(|es|, i requires 0 <= i < |es| reads es => es[i].AsFighter())
  }

  /** The views of a row of enemies, index by index (`Bots.BotViews` is the same over the separate Bot class). */
  function EnemyViews(es: seq<Enemy>): (vs: seq<EnemyView>)
    reads es
    ensures |vs| == |es| && forall i :: 0 <= i < |es| ==> vs[i] == es[i].View()
  {
    seq(|es|, i requires 0 <= i < |es| reads es => es[i].View())
  }
}

=== FILE: engine.dfy ===
/**
 * Game.ts: the world and its tick. The game owns the player, the bots, the
 * enemies, the projectiles and the obstacles; a tick moves the player, the
 * bots and the enemies (each may fire), moves and culls the projectiles,
 * resolves projectile hits, removes the dead and tops the enemies up.
 *
 * The canvas is reduced to its width and height; the listeners' key set and
 * mouse record, the per-bot random draws and the host arithmetic are
 * parameters of a tick.
 */
module Engine {
  import opened Optional
  import opened Geometry
  import opened Agent
  import opened Projectiles
  import opened Players
  import opened Enemies
  import opened Bots
  import opened Settings
  import opened Rules
  import opened Seqs

  /** The mouse record the listeners keep: canvas coordinates and whether the button is down. */
  datatype Mouse = Mouse(x: real, y: real, pressed: bool)

  /** createObstacles: the six fixed rectangles. */
  const InitialObstacles: seq<Obstacle> := [
    Obstacle(400.0, 300.0, 100.0, 100.0), Obstacle(700.0, 200.0, 150.0, 80.0),
    Obstacle(1000.0, 400.0, 120.0, 120.0), Obstacle(300.0, 600.0, 80.0, 200.0),
    Obstacle(1200.0, 700.0, 200.0, 100.0), Obstacle(1500.0, 300.0, 100.0, 150.0)]

  /** The first index of fs the shot hits: the `for ... of` loop with its early exit. */
  method FirstHitIn(s: Shot, fs: seq<Fighter>) returns (k: Option<nat>)
    ensures k == FirstHit(s, fs)
  {
    for j := 0 to |fs|
      invariant forall l :: 0 <= l < j ==> !Hits(s, fs[l])
    {
      if Hits(s, fs[j]) {
        return Some(j);
      }
    }
    return None;
  }

  /** The hit search of the filter callback for one shot, by owner, with its early exits. */
  method ImpactIn(s: Shot, multiplier: real, w: World) returns (impact: Impact)
    ensures impact == ImpactOf(s, multiplier, w)
  {
    if s.owner == ByEnemy {
      impact := EnemyShotImpact(s, w);
    } else {
      impact := FriendlyShotImpact(s, multiplier, w);
    }
  }

  /** A player or bot shot: the first enemy it touches, the damage scaled for a bot's shot. */
  method FriendlyShotImpact(s: Shot, multiplier: real, w: World) returns (impact: Impact)
    requires s.owner != ByEnemy
    ensures impact == ImpactOf(s, multiplier, w)
  {
    var k := FirstHitIn(s, w.enemies);
    var damage := if s.owner == ByBot then Scaled(s.damage, multiplier) else s.damage;
    impact := if k.Some? then HitEnemy(k.value, damage) else Miss;
  }

  /** An enemy shot: the player if it touches the player, otherwise the first bot it touches. */
  method EnemyShotImpact(s: Shot, w: World) returns (impact: Impact)
    requires s.owner == ByEnemy
    ensures forall multiplier :: impact == ImpactOf(s, multiplier, w)
  {
    if Hits(s, w.player) {
      return HitPlayer(s.damage);
    }
    var k := FirstHitIn(s, w.bots);
    impact := if k.Some? then HitBot(k.value, s.damage) else Miss;
  }

  /** Filtering projectiles by a test on their values filters their values by the same test. */
  lemma {:induction false} FilterShots(keep: Projectile -> bool, test: Shot -> bool, ps: seq<Projectile>)
    requires forall k :: 0 <= k < |ps| ==> (keep(ps[k]) <==> test(ps[k].View()))
    ensures Shots(Filter(keep, ps)) == Filter(test, Shots(ps))
    decreases |ps|
  {
    if ps != [] {
      var n := |ps| - 1;
      FilterShots(keep, test, ps[..n]);
      assert Shots(ps)[..n] == Shots(ps[..n]);
      ShotsAppend(Filter(keep, ps[..n]), if keep(ps[n]) then [ps[n]] else []);
    }
  }

  /** The values of the projectiles that miss are the shots the collision pass keeps. */
  lemma KeptShots(ps: seq<Projectile>, missed: set<Projectile>, w: World, m: real)
    requires forall k :: 0 <= k < |ps| ==> (ps[k] in missed <==> ImpactOf(ps[k].View(), m, w).Miss?)
    ensures Shots(Filter((p: Projectile) => p in missed, ps)) == Resolve(w, Shots(ps), m).kept
  {
    FilterShots((p: Projectile) => p in missed, (s: Shot) => ImpactOf(s, m, w).Miss?, ps);
    ResolveKeepsMisses(w, Shots(ps), m);
  }

  /** The enemies with health above 0. */
  function LiveEnemies(es: seq<Enemy>): set<Enemy>
    reads es
  {
    set e | e in es && e.health > 0.0
  }

  /** The bots with health above 0. */
  function LiveBots(bs: seq<Bot>): set<Bot>
    reads bs
  {
    set b | b in bs && b.health > 0.0
  }

  /** The live enemies of es, in their order. */
  function LiveEnemyRow(es: seq<Enemy>): seq<Enemy>
    reads es
  {
    var live := LiveEnemies(es);
    Filter((e: Enemy) => e in live, es)
  }

  /** es is the living row kept, topped up by the respawn floor after it. */
  predicate ToppedUp(kept: seq<Enemy>, es: seq<Enemy>)
  {
    |es| == Respawned(|kept|) && es[..|kept|] == kept
  }

  /** The live bots of bs, in their order. */
  function LiveBotRow(bs: seq<Bot>): seq<Bot>
    reads bs
  {
    var live := LiveBots(bs);
    Filter((b: Bot) => b in live, bs)
  }

  /** `enemies.filter(e => e.health > 0)`: the live enemies, in their order. */
  method AliveEnemies(es: seq<Enemy>) returns (r: seq<Enemy>)
    ensures var live := LiveEnemies(es); r == Filter((e: Enemy) => e in live, es)
    ensures forall e :: e in r <==> e in es && e.health > 0.0
    ensures Distinct(es) ==> Distinct(r)
  {
    ghost var live := LiveEnemies(es);
    ghost var keep := (e: Enemy) => e in live;
    r := [];
    for i := 0 to |es|
      invariant r == Filter(keep, es[..i])
    {
      FilterStep(keep, es, i);
      if es[i].health > 0.0 {
        r := r + [es[i]];
      }
    }
    assert es[..|es|] == es;
    forall e
      ensures e in r <==> e in es && e.health > 0.0
    {
      FilterMembership(keep, es, e);
    }
    if Distinct(es) {
      FilterDistinct(keep, es);
    }
  }

  /** `bots.filter(b => b.health > 0)`: the live bots, in their order. */
  method AliveBots(bs: seq<Bot>) returns (r: seq<Bot>)
    ensures var live := LiveBots(bs); r == Filter((b: Bot) => b in live, bs)
    ensures forall b :: b in r <==> b in bs && b.health > 0.0
    ensures Distinct(bs) ==> Distinct(r)
  {
    ghost var live := LiveBots(bs);
    ghost var keep := (b: Bot) => b in live;
    r := [];
    for i := 0 to |bs|
      invariant r == Filter(keep, bs[..i])
    {
      FilterStep(keep, bs, i);
      if bs[i].health > 0.0 {
        r := r + [bs[i]];
      }
    }
    assert bs[..|bs|] == bs;
    forall b
      ensures b in r <==> b in bs && b.health > 0.0
    {
      FilterMembership(keep, bs, b);
    }
    if Distinct(bs) {
      FilterDistinct(keep, bs);
    }
  }

  /** The enemy object a target index names, null when there is none: `nearest` in updateAI. */
  function TargetOf(es: seq<Enemy>, k: Option<nat>): Enemy?
  {
    if k.Some? && k.value < |es| then es[k.value] else null
  }

  /**
   * A bot as the constructor makes it: full health, the tier's speed, no
   * cooldown, following with a zero timer, no cover or flank point, no target.
   */
  predicate Recruited(b: Bot, settings: GameSettings)
    reads b
  {
    && b.health == BotMaxHealth && b.targetEnemy == null
    && b.View() == BotView(b.Position(), TierSpeed(settings.movementSpeed), 0.0, Mind(Follow, 0.0, None, None))
  }

  /** What a bot carries besides its place in the world: its view, the enemy it targets and its settings. */
  datatype BotRecord = BotRecord(view: BotView, target: Enemy?, settings: GameSettings)

  /** The records of a row of bots, index by index. */
  function Records(bs: seq<Bot>): (rs: seq<BotRecord>)
    reads bs
    ensures |rs| == |bs| && forall i :: 0 <= i < |bs| ==> rs[i] == BotRecord(bs[i].View(), bs[i].targetEnemy, bs[i].settings)
  {
    seq(|bs|, i requires 0 <= i < |bs| reads bs => BotRecord(bs[i].View(), bs[i].targetEnemy, bs[i].settings))
  }

  /** The records the turns leave: the turn's view, the enemy it targets in es, and the settings the bot had. */
  function TurnRecords(turns: seq<BotTurn>, es: seq<Enemy>, before: seq<BotRecord>): (rs: seq<BotRecord>)
    requires |before| == |turns|
    ensures |rs| == |turns| &&
            forall i :: 0 <= i < |turns| ==> rs[i] == BotRecord(turns[i].bot, TargetOf(es, turns[i].target), before[i].settings)
  {
    seq(|turns|, i requires 0 <= i < |turns| => BotRecord(turns[i].bot, TargetOf(es, turns[i].target), before[i].settings))
  }

  /** Everything the rows bs and es show of their agents: fighters and records of the bots, fighters and views of the enemies. */
  function Standing(bs: seq<Bot>, es: seq<Enemy>): (seq<Fighter>, seq<BotRecord>, seq<Fighter>, seq<EnemyView>)
    reads bs, es
  {
    (BotFighters(bs), Records(bs), Fighters(es), EnemyViews(es))
  }

  /** The enemies' views the turns leave, in order. */
  function MoveViews(moves: seq<EnemyTurn>): (vs: seq<EnemyView>)
    ensures |vs| == |moves| && forall i :: 0 <= i < |moves| ==> vs[i] == moves[i].enemy
  {
    seq(|moves|, i requires 0 <= i < |moves| => moves[i].enemy)
  }

  /** Bot b ends its turn as `u` says, aiming at the enemy `u` targets, with the given health and settings. */
  predicate BotArrived(b: Bot, u: BotTurn, enemies: seq<Enemy>, health: real, settings: GameSettings)
    reads b
  {
    b.View() == u.bot && b.targetEnemy == TargetOf(enemies, u.target) && b.health == health && b.settings == settings
  }

  /** The agents of w stand, with their own radii, where the player's move and the turns put them. */
  predicate Placed(w: World, player: Vec, turns: seq<BotTurn>, moves: seq<EnemyTurn>)
  {
    && w.player.pos == player && w.player.radius == PlayerRadius
    && |w.bots| == |turns| &&
       (forall i :: 0 <= i < |turns| ==> w.bots[i].pos == turns[i].bot.pos && w.bots[i].radius == BotRadius)
    && |w.enemies| == |moves| &&
       (forall i :: 0 <= i < |moves| ==> w.enemies[i].pos == moves[i].enemy.pos && w.enemies[i].radius == EnemyRadius)
  }

  /**
   * The world after the turns is fixed by the turns and the old healths: two
   * worlds placed by the same turns with the same healths as a third are one.
   */
  lemma PlacedDetermines(w: World, v: World, u: World, player: Vec, turns: seq<BotTurn>, moves: seq<EnemyTurn>)
    requires Placed(w, player, turns, moves) && Placed(v, player, turns, moves)
    requires SameHealths(w, u) && SameHealths(v, u)
    ensures w == v
  {
  }

  /** Enemy e ends its turn as `u` says, with the given health. */
  predicate EnemyArrived(e: Enemy, u: EnemyTurn, health: real)
    reads e
  {
    e.View() == u.enemy && e.health == health
  }

  /** The turn of each bot from its view, the i-th with the i-th draws. */
  function BotTurns(views: seq<BotView>, dt: real, player: Vec, enemies: seq<Vec>, obstacles: seq<Obstacle>,
                    host: Host, draws: nat -> Draws): (ts: seq<BotTurn>)
    ensures TurnsTo(views, ts, dt, player, enemies, obstacles, host, draws)
  {
    seq(|views|, j requires 0 <= j < |views| => TakeTurn(views[j], dt, player, enemies, obstacles, host, draws(j)))
  }

  /** turns[j] is the turn of the bot with view views[j] and the j-th draws. */
  predicate TurnsTo(views: seq<BotView>, turns: seq<BotTurn>, dt: real, player: Vec, enemies: seq<Vec>,
                    obstacles: seq<Obstacle>, host: Host, draws: nat -> Draws)
  {
    && |turns| == |views|
    && forall j {:trigger TakeTurn(views[j], dt, player, enemies, obstacles, host, draws(j))} :: 0 <= j < |views| ==>
         turns[j] == TakeTurn(views[j], dt, player, enemies, obstacles, host, draws(j))
  }

  /** The turns of a row of bots exist: BotTurns builds them. */
  lemma BotTurnsExist(views: seq<BotView>, dt: real, player: Vec, enemies: seq<Vec>, obstacles: seq<Obstacle>,
                      host: Host, draws: nat -> Draws) returns (turns: seq<BotTurn>)
    ensures TurnsTo(views, turns, dt, player, enemies, obstacles, host, draws)
  {
    turns := BotTurns(views, dt, player, enemies, obstacles, host, draws);
  }

  /** One more bot turn taken. */
  lemma BotVolleyStep(turns: seq<BotTurn>, i: nat)
    requires i < |turns|
    ensures BotVolley(turns[..i + 1]) == BotVolley(turns[..i]) + (if turns[i].shot.Some? then [turns[i].shot.value] else [])
  {
    assert turns[..i + 1][..i] == turns[..i];
  }

  /** The turn of each enemy from its view. */
  function EnemyTurns(views: seq<EnemyView>, dt: real, player: Vec, bots: seq<Vec>, obstacles: seq<Obstacle>,
                      host: Host): (ts: seq<EnemyTurn>)
    ensures EnemyTurnsTo(views, ts, dt, player, bots, obstacles, host)
  {
    seq(|views|, j requires 0 <= j < |views| => EnemyTakeTurn(views[j], dt, player, bots, obstacles, host))
  }

  /** turns[j] is the turn of the enemy with view views[j]. */
  predicate EnemyTurnsTo(views: seq<EnemyView>, turns: seq<EnemyTurn>, dt: real, player: Vec, bots: seq<Vec>,
                         obstacles: seq<Obstacle>, host: Host)
  {
    && |turns| == |views|
    && forall j {:trigger EnemyTakeTurn(views[j], dt, player, bots, obstacles, host)} :: 0 <= j < |views| ==>
         turns[j] == EnemyTakeTurn(views[j], dt, player, bots, obstacles, host)
  }

  /** The shots of the bot turns that fired, in turn order: the order of the pushes. */
  function BotVolley(turns: seq<BotTurn>): (v: seq<Shot>)
    ensures |v| <= |turns|
    decreases |turns|
  {
    if turns == [] then []
    else
      var last := turns[|turns| - 1];
      BotVolley(turns[..|turns| - 1]) + (if last.shot.Some? then [last.shot.value] else [])
  }

  /** The turns of a row of enemies exist: EnemyTurns builds them. */
  lemma EnemyTurnsExist(views: seq<EnemyView>, dt: real, player: Vec, bots: seq<Vec>, obstacles: seq<Obstacle>,
                        host: Host) returns (turns: seq<EnemyTurn>)
    ensures EnemyTurnsTo(views, turns, dt, player, bots, obstacles, host)
  {
    turns := EnemyTurns(views, dt, player, bots, obstacles, host);
  }

  /** One more enemy turn taken. */
  lemma EnemyVolleyStep(turns: seq<EnemyTurn>, i: nat)
    requires i < |turns|
    ensures EnemyVolley(turns[..i + 1]) == EnemyVolley(turns[..i]) + (if turns[i].shot.Some? then [turns[i].shot.value] else [])
  {
    assert turns[..i + 1][..i] == turns[..i];
  }

  /** The shots of the enemy turns that fired, in turn order: `BotVolley` over enemy turns. */
  function EnemyVolley(turns: seq<EnemyTurn>): (v: seq<Shot>)
    ensures |v| <= |turns|
    decreases |turns|
  {
    if turns == [] then []
    else
      var last := turns[|turns| - 1];
      EnemyVolley(turns[..|turns| - 1]) + (if last.shot.Some? then [last.shot.value] else [])
  }

  /** Where each bot stands after its turn. */
  function BotPlaces(turns: seq<BotTurn>): (ps: seq<Vec>)
    ensures |ps| == |turns| && forall i :: 0 <= i < |turns| ==> ps[i] == turns[i].bot.pos
  {
    seq(|turns|, i requires 0 <= i < |turns| => turns[i].bot.pos)
  }

  /**
   * The player's shot of a tick: with the button down, the cooldown (as the
   * player's update left it) run out and the aim off the player's position,
   * one shot toward the mouse at speed 800 with damage 25.
   */
  function PlayerVolley(mouse: Mouse, cooldown: real, pos: Vec, host: Host): seq<Shot>
  {
    var aim := Vec(mouse.x, mouse.y);
    if mouse.pressed && cooldown <= 0.0 && DistSq(pos, aim) > 0.0 then
      [Shot(pos, Velocity(host, pos, aim, PlayerShotSpeed), ByPlayer, PlayerShotDamage, ProjectileRadius)]
    else []
  }

  class Game {
    const width: real
    const height: real
    var lastTime: real
    var isPaused: bool
    const player: Player
    var bots: seq<Bot>
    var enemies: seq<Enemy>
    var projectiles: seq<Projectile>
    const obstacles: seq<Obstacle>
    var settings: GameSettings

    /** Each bot, enemy and projectile appears once in its array. */
    predicate Valid()
      reads this
    {
      Distinct(bots) && Distinct(enemies) && Distinct(projectiles)
    }

    /** The agents as the collision pass sees them. */
    function WorldView(): World
      reads this`bots, this`enemies, player, bots, enemies
    {
      World(player.AsFighter(), BotFighters(bots), Fighters(enemies))
    }

    constructor (width: real, height: real, settings: GameSettings)
      ensures Valid()
      ensures this.width == width && this.height == height && this.settings == settings
      ensures lastTime == 0.0 && !isPaused
      ensures player.Position() == Vec(100.0, 100.0) && player.health == PlayerMaxHealth && player.shootCooldown == 0.0
      ensures |bots| == 3
      ensures bots[0].name == "Alpha" && bots[0].Position() == Vec(150.0, 150.0)
      ensures bots[1].name == "Bravo" && bots[1].Position() == Vec(50.0, 150.0)
      ensures bots[2].name == "Charlie" && bots[2].Position() == Vec(100.0, 200.0)
      ensures forall b :: b in bots ==> b.settings == settings && b.SpeedMatches() && Recruited(b, settings)
      ensures obstacles == InitialObstacles
      ensures Positions(enemies) == SpawnPoints
      ensures forall e :: e in enemies ==> e.health == EnemyMaxHealth && e.shootCooldown == 0.0
      ensures projectiles == []
    {
      this.width := width;
      this.height := height;
      this.settings := settings;
      lastTime := 0.0;
      isPaused := false;
      player := new Player(100.0, 100.0);
      var bs := NewBots(settings);
      bots := bs;
      obstacles := InitialObstacles;
      enemies := [];
      projectiles := [];
      new;
      SpawnEnemies();
    }

    /** The three bots of the constructor, in order. */
    static method NewBots(settings: GameSettings) returns (bs: seq<Bot>)
      ensures |bs| == 3 && Distinct(bs)
      ensures bs[0].name == "Alpha" && bs[0].Position() == Vec(150.0, 150.0)
      ensures bs[1].name == "Bravo" && bs[1].Position() == Vec(50.0, 150.0)
      ensures bs[2].name == "Charlie" && bs[2].Position() == Vec(100.0, 200.0)
      ensures forall b :: b in bs ==> fresh(b) && b.settings == settings && b.SpeedMatches() && Recruited(b, settings)
    {
      var alpha := new Bot(150.0, 150.0, "Alpha", settings);
      var bravo := new Bot(50.0, 150.0, "Bravo", settings);
      var charlie := new Bot(100.0, 200.0, "Charlie", settings);
      bs := [alpha, bravo, charlie];
    }

    /** spawnEnemies: a fresh, full-health enemy at each of the five spawn points, appended in order. */
    method SpawnEnemies()
      requires Distinct(enemies)
      modifies this`enemies
      ensures |enemies| == |old(enemies)| + |SpawnPoints|
      ensures enemies[..|old(enemies)|] == old(enemies)
      ensures forall j :: |old(enemies)| <= j < |enemies| ==>
                fresh(enemies[j]) && enemies[j].Position() == SpawnPoints[j - |old(enemies)|] &&
                enemies[j].health == EnemyMaxHealth && enemies[j].shootCooldown == 0.0
      ensures Distinct(enemies)
    {
      var n := |enemies|;
      for i := 0 to |SpawnPoints|
        invariant |enemies| == n + i
        invariant enemies[..n] == old(enemies)
        invariant forall j :: n <= j < |enemies| ==>
                    fresh(enemies[j]) && enemies[j].Position() == SpawnPoints[j - n] && enemies[j].health == EnemyMaxHealth &&
                    enemies[j].shootCooldown == 0.0
        invariant Distinct(enemies)
      {
        var e := new Enemy(SpawnPoints[i].x, SpawnPoints[i].y);
        enemies := enemies + [e];
      }
    }

    /** updateSettings: store the settings and pass them to every bot. */
    method UpdateSettings(s: GameSettings)
      modifies this`settings, bots
      ensures settings == s
      ensures forall b :: b in bots ==> b.settings == s && b.SpeedMatches()
      ensures forall i :: 0 <= i < |bots| ==>
        && bots[i].View() == old(bots[i].View()).(speed := TierSpeed(s.movementSpeed))
        && bots[i].health == old(bots[i].health) && bots[i].targetEnemy == old(bots[i].targetEnemy)
    {
      settings := s;
      for i := 0 to |bots|
        invariant settings == s
        invariant forall j :: 0 <= j < i ==> bots[j].settings == s && bots[j].SpeedMatches()
        invariant forall j :: 0 <= j < |bots| ==>
          && bots[j].View().(speed := 0.0) == old(bots[j].View()).(speed := 0.0)
          && bots[j].health == old(bots[j].health) && bots[j].targetEnemy == old(bots[j].targetEnemy)
      {
        bots[i].UpdateSettings(s);
      }
    }

    method Pause()
      modifies this`isPaused
      ensures isPaused
    {
      isPaused := true;
    }

    method Resume()
      modifies this`isPaused
      ensures !isPaused
    {
      isPaused := false;
    }

    /**
     * What one tick of length dt does, from the state before it: the player
     * moves; the bots, then the enemies, take the turns their views call for
     * against where the others stand, none of them hurt yet (`moved`); the
     * row of old and new shots is then taken through the first filter and
     * the collision pass against `moved`: the projectiles that remain are the
     * misses, and `hit` is the world those hits leave, the player's health
     * among it.
     */
    twostate predicate Ticked(dt: real, keys: set<string>, mouse: Mouse, draws: nat -> Draws, host: Host,
                              turns: seq<BotTurn>, moves: seq<EnemyTurn>, moved: World, hit: World)
      reads this`projectiles, this`settings, player, projectiles
    {
      var pos := PlayerMotion(old(player.Position()), dt, keys, obstacles, host);
      var cooldown := CooledDown(old(player.shootCooldown), dt);
      var volley := PlayerVolley(mouse, cooldown, pos, host);
      var row := old(Shots(projectiles)) + volley + BotVolley(turns) + EnemyVolley(moves);
      var r := Resolve(moved, Flight(row, dt, obstacles, width, height), settings.damageMultiplier);
      && player.Position() == pos
      && player.shootCooldown == (if volley == [] then cooldown else PlayerShootDelay)
      && TurnsTo(old(BotViews(bots)), turns, dt, pos, old(Positions(enemies)), obstacles, host, draws)
      && EnemyTurnsTo(old(EnemyViews(enemies)), moves, dt, pos, BotPlaces(turns), obstacles, host)
      && Placed(moved, pos, turns, moves)
      && SameHealths(moved, old(WorldView()))
      && Shots(projectiles) == r.kept
      && hit == r.world
      && player.health == hit.player.health
    }

    /**
     * One animation frame: nothing at all while paused; otherwise the elapsed
     * time, capped at 0.1 s, drives one tick and the frame time is recorded.
     */
    method GameLoop(currentTime: real, keys: set<string>, mouse: Mouse, draws: nat -> Draws, host: Host)
      returns (ghost turns: seq<BotTurn>, ghost moves: seq<EnemyTurn>, ghost moved: World, ghost hit: World)
      requires Valid()
      modifies this`lastTime, this`projectiles, this`enemies, this`bots, player, bots, enemies, projectiles
      ensures Valid()
      ensures isPaused == old(isPaused) && settings == old(settings)
      ensures old(isPaused) ==> unchanged(this) && unchanged(player) && unchanged(bots) && unchanged(enemies) &&
                                unchanged(projectiles)
      ensures !old(isPaused) ==> lastTime == currentTime
      ensures !old(isPaused) ==> |enemies| >= 3 && (forall e :: e in enemies ==> e.health > 0.0) &&
                                 (forall b :: b in bots ==> b.health > 0.0)
      ensures !old(isPaused) ==> Ticked(ClampDelta(currentTime, old(lastTime)), keys, mouse, draws, host, turns, moves, moved, hit)
    {
      turns, moves, moved, hit := [], [], WorldView(), WorldView();
      if isPaused {
        return;
      }
      turns, moves, moved, hit := Tick(currentTime, keys, mouse, draws, host);
    }

    /** The unpaused frame: dt from the clock, the frame time recorded, then one tick. */
    method Tick(currentTime: real, keys: set<string>, mouse: Mouse, draws: nat -> Draws, host: Host)
      returns (ghost turns: seq<BotTurn>, ghost moves: seq<EnemyTurn>, ghost moved: World, ghost hit: World)
      requires Valid()
      modifies this`lastTime, this`projectiles, this`enemies, this`bots, player, bots, enemies, projectiles
      ensures Valid() && lastTime == currentTime
      ensures |enemies| >= 3 && (forall e :: e in enemies ==> e.health > 0.0) && (forall b :: b in bots ==> b.health > 0.0)
      ensures Ticked(ClampDelta(currentTime, old(lastTime)), keys, mouse, draws, host, turns, moves, moved, hit)
    {
      var deltaTime := ClampDelta(currentTime, lastTime);
      // update does not read lastTime, so recording the frame time after it is the same as before it
      turns, moves, moved, hit := Update(deltaTime, keys, mouse, draws, host);
      ghost var ticked := Ticked(deltaTime, keys, mouse, draws, host, turns, moves, moved, hit);
      assert ticked;
      lastTime := currentTime;
      assert ticked == Ticked(deltaTime, keys, mouse, draws, host, turns, moves, moved, hit);
    }

    /**
     * update: player, bots and enemies move and fire in that order; then the
     * projectiles move and are culled, hits are resolved, the dead are removed
     * and the enemies are topped up.
     */
    method Update(dt: real, keys: set<string>, mouse: Mouse, draws: nat -> Draws, host: Host)
      returns (ghost turns: seq<BotTurn>, ghost moves: seq<EnemyTurn>, ghost moved: World, ghost hit: World)
      requires Valid()
      modifies this`projectiles, this`enemies, this`bots, player, bots, enemies, projectiles
      ensures Valid()
      ensures |enemies| >= 3
      ensures forall e :: e in enemies ==> e.health > 0.0
      ensures forall b :: b in bots ==> b in old(bots) && b.health > 0.0
      ensures AllSurvive(projectiles)
      ensures Ticked(dt, keys, mouse, draws, host, turns, moves, moved, hit)
      ensures ToppedUp(LiveEnemyRow(old(enemies)), enemies)
      ensures bots == LiveBotRow(old(bots))
      ensures hit == World(player.AsFighter(), BotFighters(old(bots)), Fighters(old(enemies)))
      ensures |turns| == |old(bots)| && Records(old(bots)) == TurnRecords(turns, old(enemies), old(Records(bots)))
      ensures EnemyViews(old(enemies)) == MoveViews(moves)
    {
      ghost var w0 := WorldView();
      ghost var fired;
      turns, moves, fired := MoveAgents(dt, keys, mouse, draws, host);
      moved := WorldView();
      StandWhereTurned(player.Position(), turns, moves);
      Unhurt(w0);
      Recorded(turns, moves, old(Records(bots)));
      hit := ResolveProjectiles(dt);
    }

    /** After the turns, the world stands where they put the agents. */
    lemma StandWhereTurned(pos: Vec, turns: seq<BotTurn>, moves: seq<EnemyTurn>)
      requires player.Position() == pos && |bots| == |turns| && |enemies| == |moves|
      requires forall i :: 0 <= i < |bots| ==> bots[i].View() == turns[i].bot
      requires forall i :: 0 <= i < |enemies| ==> enemies[i].View() == moves[i].enemy
      ensures Placed(WorldView(), pos, turns, moves)
    {
    }

    /** Bots and enemies standing in their turns' states show the records and views those turns leave. */
    lemma Recorded(turns: seq<BotTurn>, moves: seq<EnemyTurn>, before: seq<BotRecord>)
      requires |bots| == |turns| == |before| && |enemies| == |moves|
      requires forall i :: 0 <= i < |bots| ==> BotArrived(bots[i], turns[i], enemies, bots[i].health, before[i].settings)
      requires forall i :: 0 <= i < |enemies| ==> enemies[i].View() == moves[i].enemy
      ensures Records(bots) == TurnRecords(turns, enemies, before)
      ensures EnemyViews(enemies) == MoveViews(moves)
    {
    }

    /** Agents whose healths are, one by one, those of w0 show w0's healths. */
    lemma Unhurt(w0: World)
      requires player.health == w0.player.health
      requires |bots| == |w0.bots| && forall i :: 0 <= i < |bots| ==> bots[i].health == w0.bots[i].health
      requires |enemies| == |w0.enemies| && forall i :: 0 <= i < |enemies| ==> enemies[i].health == w0.enemies[i].health
      ensures SameHealths(WorldView(), w0)
    {
    }

    /**
     * The first half of update: the player moves and may fire, then each bot
     * in order takes its turn against the player and the enemies where they
     * stand, then each enemy in order takes its turn against the player and
     * the bots where they now stand. The new shots are appended in that order.
     */
    method MoveAgents(dt: real, keys: set<string>, mouse: Mouse, draws: nat -> Draws, host: Host)
      returns (ghost turns: seq<BotTurn>, ghost moves: seq<EnemyTurn>, ghost fired: seq<Projectile>)
      requires Valid()
      modifies this`projectiles, player`x, player`y, player`shootCooldown, bots, enemies
      ensures Valid() && projectiles == old(projectiles) + fired
      ensures forall j :: 0 <= j < |fired| ==> fresh(fired[j])
      ensures var pos := PlayerMotion(old(player.Position()), dt, keys, obstacles, host);
              var cooldown := CooledDown(old(player.shootCooldown), dt);
              var volley := PlayerVolley(mouse, cooldown, pos, host);
        && player.Position() == pos
        && player.shootCooldown == (if volley == [] then cooldown else PlayerShootDelay)
        && TurnsTo(old(BotViews(bots)), turns, dt, pos, old(Positions(enemies)), obstacles, host, draws)
        && EnemyTurnsTo(old(EnemyViews(enemies)), moves, dt, pos, BotPlaces(turns), obstacles, host)
        && Shots(projectiles) == old(Shots(projectiles)) + volley + BotVolley(turns) + EnemyVolley(moves)
      ensures forall i :: 0 <= i < |bots| ==> BotArrived(bots[i], turns[i], enemies, old(bots[i].health), old(bots[i].settings))
      ensures forall i :: 0 <= i < |enemies| ==> EnemyArrived(enemies[i], moves[i], old(enemies[i].health))
      ensures player.health == old(player.health)
    {
      ghost var views, places, eviews := BotViews(bots), Positions(enemies), EnemyViews(enemies);
      ghost var before := projectiles;
      ghost var mine := PlayerTurn(dt, keys, mouse, host);
      ghost var theirs;
      turns, moves, theirs := FightersTurn(dt, draws, host, player.Position(), views, places, eviews);
      fired := mine + theirs;
      RowsAppend(before, mine, theirs);
    }

    /** The player's part of update: it moves, then fires if the mouse is down and its cooldown has run out. */
    method PlayerTurn(dt: real, keys: set<string>, mouse: Mouse, host: Host) returns (ghost fired: seq<Projectile>)
      requires Distinct(projectiles)
      modifies this`projectiles, player`x, player`y, player`shootCooldown
      ensures Distinct(projectiles) && projectiles == old(projectiles) + fired
      ensures forall j :: 0 <= j < |fired| ==> fresh(fired[j]) && fired[j].owner == ByPlayer
      ensures player.health == old(player.health)
      ensures var pos := PlayerMotion(old(player.Position()), dt, keys, obstacles, host);
              var cooldown := CooledDown(old(player.shootCooldown), dt);
              var volley := PlayerVolley(mouse, cooldown, pos, host);
        && player.Position() == pos
        && player.shootCooldown == (if volley == [] then cooldown else PlayerShootDelay)
        && Shots(projectiles) == old(Shots(projectiles)) + volley
    {
      player.Update(dt, keys, obstacles, host);
      fired := PlayerShooting(mouse, host);
    }

    /**
     * The bots in order, then the enemies in order, each against the player at
     * `pos`; `views`, `places` and `eviews` are the bots, enemy positions and
     * enemies as they stand before.
     */
    method FightersTurn(dt: real, draws: nat -> Draws, host: Host, ghost pos: Vec, ghost views: seq<BotView>,
                        ghost places: seq<Vec>, ghost eviews: seq<EnemyView>)
      returns (ghost turns: seq<BotTurn>, ghost moves: seq<EnemyTurn>, ghost fired: seq<Projectile>)
      requires Valid() && pos == player.Position()
      requires views == BotViews(bots) && places == Positions(enemies) && eviews == EnemyViews(enemies)
      modifies this`projectiles, bots, enemies
      ensures Valid() && projectiles == old(projectiles) + fired
      ensures forall j :: 0 <= j < |fired| ==> fresh(fired[j])
      ensures TurnsTo(views, turns, dt, pos, places, obstacles, host, draws)
      ensures EnemyTurnsTo(eviews, moves, dt, pos, BotPlaces(turns), obstacles, host)
      ensures Shots(projectiles) == old(Shots(projectiles)) + BotVolley(turns) + EnemyVolley(moves)
      ensures forall i :: 0 <= i < |bots| ==> BotArrived(bots[i], turns[i], enemies, old(bots[i].health), old(bots[i].settings))
      ensures forall i :: 0 <= i < |enemies| ==> EnemyArrived(enemies[i], moves[i], old(enemies[i].health))
    {
      ghost var before := projectiles;
      var theirs;
      turns, theirs := UpdateBots(dt, draws, host, pos, places, views);
      ghost var between := projectiles;
      // the enemies' turns touch no bot, so the bots' arrival carries over them
      ghost var arrived := forall i :: 0 <= i < |bots| ==> BotArrived(bots[i], turns[i], enemies, old(bots[i].health), old(bots[i].settings));
      assert arrived;
      var others;
      moves, others := UpdateEnemies(dt, host, pos, BotPositions(bots), eviews);
      assert arrived == forall i :: 0 <= i < |bots| ==> BotArrived(bots[i], turns[i], enemies, old(bots[i].health), old(bots[i].settings));
      fired := theirs + others;
      assert projectiles == between + others && between == before + theirs;
      RowsAppend(before, theirs, others);
    }

    /**
     * Between the two states the player and the agents of bs and es changed
     * at most their health: the player keeps its place and cooldown, each bot
     * its view, target and settings, each enemy its view.
     */
    twostate predicate OnlyHealths(bs: seq<Bot>, es: seq<Enemy>)
      reads player, bs, es
    {
      && player.Position() == old(player.Position()) && player.shootCooldown == old(player.shootCooldown)
      && Records(bs) == old(Records(bs))
      && EnemyViews(es) == old(EnemyViews(es))
    }

    /** The second half of update: projectile motion and cull, hits, the dead-entity cull and the respawn floor. */
    method ResolveProjectiles(dt: real) returns (ghost hit: World)
      requires Valid()
      modifies this`projectiles, this`enemies, this`bots, player`health, bots`health, enemies`health, projectiles
      ensures Valid() && OnlyHealths(old(bots), old(enemies))
      ensures |enemies| >= 3
      ensures forall e :: e in enemies ==> e.health > 0.0
      ensures forall b :: b in bots ==> b in old(bots) && b.health > 0.0
      ensures forall b :: b in old(bots) && b.health > 0.0 ==> b in bots
      ensures forall e :: e in old(enemies) && e.health > 0.0 ==> e in enemies
      ensures AllSurvive(projectiles)
      ensures var r := Resolve(old(WorldView()), Flight(old(Shots(projectiles)), dt, obstacles, width, height), settings.damageMultiplier);
        hit == r.world && Shots(projectiles) == r.kept
      ensures player.Position() == old(player.Position())
      ensures ToppedUp(LiveEnemyRow(old(enemies)), enemies)
      ensures bots == LiveBotRow(old(bots))
      ensures hit == World(player.AsFighter(), BotFighters(old(bots)), Fighters(old(enemies)))
    {
      ghost var survivors, shots := MoveAndHit(dt);
      hit := WorldView();
      Cull();
    }

    /**
     * The dead-entity cull, then the respawn floor: the living enemies keep
     * their order and new ones follow them; the living bots keep their order.
     */
    method Cull()
      requires Distinct(bots) && Distinct(enemies)
      modifies this`enemies, this`bots
      ensures Distinct(bots) && Distinct(enemies)
      ensures |enemies| >= 3
      ensures forall e :: e in enemies ==> e.health > 0.0
      ensures forall b :: b in bots ==> b in old(bots) && b.health > 0.0
      ensures var kept := LiveEnemyRow(old(enemies));
        && ToppedUp(kept, enemies)
        && forall j :: |kept| <= j < |enemies| ==> fresh(enemies[j]) && enemies[j].health == EnemyMaxHealth
      ensures bots == LiveBotRow(old(bots))
      ensures forall b :: b in old(bots) && b.health > 0.0 ==> b in bots
      ensures forall e :: e in old(enemies) && e.health > 0.0 ==> e in enemies
      ensures Shots(projectiles) == old(Shots(projectiles)) && AllSurvive(projectiles) == old(AllSurvive(projectiles))
      ensures Standing(old(bots), old(enemies)) == old(Standing(bots, enemies))
    {
      RemoveDead();
      Respawn();
    }

    /** Every projectile of ps passes the first filter's test where it now stands. */
    predicate AllSurvive(ps: seq<Projectile>)
      reads ps
    {
      forall p :: p in ps ==> Survives(obstacles, width, height, p.View())
    }

    /**
     * The first filter, then the collision pass: `survivors` are the moved
     * projectiles still in the field and out of obstacles, in order, and
     * `shots` their values after the move; the shots are resolved against the
     * agents in order, and the projectiles that hit nothing stay.
     */
    method MoveAndHit(dt: real) returns (ghost survivors: seq<Projectile>, ghost shots: seq<Shot>)
      requires Valid()
      modifies this`projectiles, player`health, bots`health, enemies`health, projectiles
      ensures Distinct(projectiles) && OnlyHealths(bots, enemies)
      ensures AllSurvive(projectiles)
      ensures var kept := set p | p in old(projectiles) && Survives(obstacles, width, height, Advance(old(p.View()), dt));
        survivors == Filter((p: Projectile) => p in kept, old(projectiles))
      ensures forall p :: p in survivors ==> p in old(projectiles)
      ensures |shots| == |survivors| && forall i :: 0 <= i < |survivors| ==> survivors[i] in old(projectiles) && shots[i] == Advance(old(survivors[i].View()), dt)
      ensures var m := settings.damageMultiplier;
        && WorldView() == Resolve(old(WorldView()), shots, m).world
        && shots == Flight(old(Shots(projectiles)), dt, obstacles, width, height)
        && Shots(projectiles) == Resolve(old(WorldView()), shots, m).kept
        && var missed := set p | p in old(projectiles) && p in survivors && ImpactOf(Advance(old(p.View()), dt), m, old(WorldView())).Miss?;
           projectiles == Filter((p: Projectile) => p in missed, survivors)
    {
      ghost var w0 := WorldView();
      survivors, shots := AdvanceAll(dt);
      ghost var missed := set p | p in old(projectiles) && p in survivors && ImpactOf(Advance(old(p.View()), dt), settings.damageMultiplier, w0).Miss?;
      assert MissingIn(survivors, settings.damageMultiplier, w0) == missed;
      HitSurvivors(missed);
    }

    /** The first filter, with the moved survivors and their shots named. */
    method AdvanceAll(dt: real) returns (ghost survivors: seq<Projectile>, ghost shots: seq<Shot>)
      requires Valid()
      modifies this`projectiles, projectiles
      ensures Valid() && AllSurvive(projectiles) && WorldView() == old(WorldView()) && OnlyHealths(bots, enemies)
      ensures projectiles == survivors && Shots(projectiles) == shots
      ensures shots == Flight(old(Shots(projectiles)), dt, obstacles, width, height)
      ensures var kept := set p | p in old(projectiles) && Survives(obstacles, width, height, Advance(old(p.View()), dt));
        survivors == Filter((p: Projectile) => p in kept, old(projectiles))
      ensures forall p :: p in survivors ==> p in old(projectiles) && p.View() == Advance(old(p.View()), dt)
      ensures |shots| == |survivors| && forall i :: 0 <= i < |survivors| ==> survivors[i] in old(projectiles) && shots[i] == Advance(old(survivors[i].View()), dt)
    {
      AdvanceProjectiles(dt);
      survivors := projectiles;
      shots := Shots(survivors);
      ghost var kept := set p | p in old(projectiles) && Survives(obstacles, width, height, Advance(old(p.View()), dt));
      assert Surviving(old(projectiles)) == kept;
      forall p | p in survivors
        ensures p in old(projectiles)
      {
        FilterMembership((p: Projectile) => p in kept, old(projectiles), p);
      }
    }

    /** The collision pass keeps, in order, the projectiles that miss every agent, and moves none of them. */
    method HitSurvivors(ghost missed: set<Projectile>)
      requires Valid() && AllSurvive(projectiles)
      requires missed == MissingIn(projectiles, settings.damageMultiplier, WorldView())
      modifies this`projectiles, player`health, bots`health, enemies`health
      ensures Distinct(projectiles) && OnlyHealths(bots, enemies)
      ensures AllSurvive(projectiles) && Shots(old(projectiles)) == old(Shots(projectiles))
      ensures WorldView() == Resolve(old(WorldView()), old(Shots(projectiles)), settings.damageMultiplier).world
      ensures projectiles == Filter((p: Projectile) => p in missed, old(projectiles))
      ensures Shots(projectiles) == Resolve(old(WorldView()), old(Shots(projectiles)), settings.damageMultiplier).kept
    {
      ghost var before := projectiles;
      CheckProjectileCollisions();
      assert AllSurvive(before);
      assert forall p :: p in projectiles ==> p in before;
    }

    /** The respawn floor: with fewer than 3 enemies left, a batch of five is spawned. */
    method Respawn()
      requires Distinct(enemies)
      modifies this`enemies
      ensures |enemies| == Respawned(|old(enemies)|)
      ensures enemies[..|old(enemies)|] == old(enemies)
      ensures forall j :: |old(enemies)| <= j < |enemies| ==> fresh(enemies[j]) && enemies[j].health == EnemyMaxHealth
      ensures Distinct(enemies)
      ensures (forall e :: e in old(enemies) ==> e.health > 0.0) ==> forall e :: e in enemies ==> e.health > 0.0
      ensures Standing(bots, old(enemies)) == old(Standing(bots, enemies))
    {
      if |enemies| < 3 {
        SpawnEnemies();
      }
    }

    /**
     * Player shooting: with the button down and the cooldown over, a player
     * shot toward the mouse is appended. The aim must not be the player's own
     * position, where the source would divide by zero.
     */
    method PlayerShooting(mouse: Mouse, host: Host) returns (ghost fired: seq<Projectile>)
      requires Distinct(projectiles)
      modifies this`projectiles, player`shootCooldown
      ensures Distinct(projectiles) && projectiles == old(projectiles) + fired
      ensures forall j :: 0 <= j < |fired| ==> fresh(fired[j]) && fired[j].owner == ByPlayer
      ensures var volley := PlayerVolley(mouse, old(player.shootCooldown), player.Position(), host);
        && Shots(projectiles) == old(Shots(projectiles)) + volley
        && player.shootCooldown == (if volley == [] then old(player.shootCooldown) else PlayerShootDelay)
    {
      fired := [];
      if mouse.pressed && player.CanShoot() && DistSq(player.Position(), Vec(mouse.x, mouse.y)) > 0.0 {
        var p := player.Shoot(mouse.x, mouse.y, host);
        fired := [p];
        ShotsAppend(projectiles, [p]);
        projectiles := projectiles + [p];
      }
    }

    /** The bots in order: each takes its turn against the current player and enemies; their shots are appended. */
    method UpdateBots(dt: real, draws: nat -> Draws, host: Host, ghost ps: Vec, ghost es: seq<Vec>, ghost views: seq<BotView>)
      returns (ghost turns: seq<BotTurn>, fired: seq<Projectile>)
      requires Distinct(bots) && Distinct(projectiles)
      requires ps == player.Position() && es == Positions(enemies) && views == BotViews(bots)
      modifies this`projectiles, bots
      ensures Distinct(projectiles) && projectiles == old(projectiles) + fired
      ensures forall j :: 0 <= j < |fired| ==> fresh(fired[j]) && fired[j].owner == ByBot
      ensures TurnsTo(views, turns, dt, ps, es, obstacles, host, draws)
      ensures Shots(projectiles) == old(Shots(projectiles)) + BotVolley(turns)
      ensures forall i :: 0 <= i < |bots| ==> BotArrived(bots[i], turns[i], enemies, old(bots[i].health), old(bots[i].settings))
      ensures BotPositions(bots) == BotPlaces(turns)
    {
      turns := BotTurnsExist(views, dt, ps, es, obstacles, host, draws);
      fired := StepBots(bots, enemies, dt, draws, host, views, turns);
      ShotsAppend(projectiles, fired);
      projectiles := projectiles + fired;
    }

    /** The forEach over the bots; the shots they fire, in order. */
    method StepBots(bs: seq<Bot>, foes: seq<Enemy>, dt: real, draws: nat -> Draws, host: Host, ghost views: seq<BotView>,
                    ghost turns: seq<BotTurn>) returns (fired: seq<Projectile>)
      requires Distinct(bs) && |views| == |bs| && forall j :: 0 <= j < |bs| ==> views[j] == bs[j].View()
      requires TurnsTo(views, turns, dt, player.Position(), Positions(foes), obstacles, host, draws)
      modifies bs
      ensures Distinct(fired)
      ensures forall j :: 0 <= j < |fired| ==> fresh(fired[j]) && fired[j].owner == ByBot
      ensures Shots(fired) == BotVolley(turns)
      ensures forall i :: 0 <= i < |bs| ==> BotArrived(bs[i], turns[i], foes, old(bs[i].health), old(bs[i].settings))
    {
      fired := [];
      ghost var ps := player.Position();
      ghost var es := Positions(foes);
      for i := 0 to |bs|
        invariant Distinct(fired)
        invariant forall j :: 0 <= j < |fired| ==> fresh(fired[j]) && fired[j].owner == ByBot
        invariant Shots(fired) == BotVolley(turns[..i])
        invariant forall j :: 0 <= j < i ==> BotArrived(bs[j], turns[j], foes, old(bs[j].health), old(bs[j].settings))
        invariant forall j :: i <= j < |bs| ==> unchanged(bs[j])
      {
        ghost var before := fired;
        fired := StepBot(bs[i], foes, dt, draws, i, host, views, turns, ps, es, fired);
        assert forall j :: 0 <= j < |before| ==> fired[j] == before[j];
      }
      assert turns[..|bs|] == turns;
    }

    /**
     * One bot's turn: its update, then a shot if shouldShoot holds and the aim
     * is not its own position; the shot is appended to `fired`.
     */
    method StepBot(b: Bot, foes: seq<Enemy>, dt: real, draws: nat -> Draws, i: nat, host: Host, ghost views: seq<BotView>,
                   ghost turns: seq<BotTurn>, ghost ps: Vec, ghost es: seq<Vec>, fired: seq<Projectile>)
      returns (more: seq<Projectile>)
      requires ps == player.Position() && es == Positions(foes)
      requires TurnsTo(views, turns, dt, ps, es, obstacles, host, draws)
      requires i < |views| && b.View() == views[i]
      requires Distinct(fired) && Shots(fired) == BotVolley(turns[..i])
      modifies b
      ensures BotArrived(b, turns[i], foes, old(b.health), old(b.settings))
      ensures Distinct(more) && Shots(more) == BotVolley(turns[..i + 1])
      ensures |more| >= |fired| && more[..|fired|] == fired
      ensures forall j :: |fired| <= j < |more| ==> fresh(more[j]) && more[j].owner == ByBot
    {
      BotVolleyStep(turns, i);
      var p := BotAct(b, foes, dt, draws, i, host, views, turns, ps, es);
      more := fired;
      if p != null {
        ShotsAppend(fired, [p]);
        more := fired + [p];
      }
    }

    /** The bot's update, then a shot if shouldShoot holds and the aim is not its own position. */
    method BotAct(b: Bot, foes: seq<Enemy>, dt: real, draws: nat -> Draws, i: nat, host: Host, ghost views: seq<BotView>,
                  ghost turns: seq<BotTurn>, ghost ps: Vec, ghost es: seq<Vec>) returns (p: Projectile?)
      requires ps == player.Position() && es == Positions(foes)
      requires TurnsTo(views, turns, dt, ps, es, obstacles, host, draws)
      requires i < |views| && b.View() == views[i]
      modifies b
      ensures BotArrived(b, turns[i], foes, old(b.health), old(b.settings))
      ensures p == null <==> turns[i].shot.None?
      ensures p != null ==> fresh(p) && p.owner == ByBot && p.View() == turns[i].shot.value
    {
      ghost var u := TakeTurn(views[i], dt, ps, es, obstacles, host, draws(i));
      ghost var t := BotStep(views[i], dt, ps, es, obstacles, host, draws(i));
      b.Update(dt, player, foes, obstacles, host, draws(i));
      assert b.Aim() == At(es, t.target);
      p := null;
      if b.ShouldShoot() && DistSq(b.Position(), b.targetEnemy.Position()) > 0.0 {
        p := b.Shoot(host);
      }
    }

    /** The enemies in order: each takes its turn against the player and the bots' new positions; their shots are appended. */
    method UpdateEnemies(dt: real, host: Host, ghost ps: Vec, ghost bs: seq<Vec>, ghost views: seq<EnemyView>)
      returns (ghost turns: seq<EnemyTurn>, fired: seq<Projectile>)
      requires Distinct(enemies) && Distinct(projectiles)
      requires ps == player.Position() && bs == BotPositions(bots) && views == EnemyViews(enemies)
      modifies this`projectiles, enemies
      ensures Distinct(projectiles) && projectiles == old(projectiles) + fired
      ensures forall j :: 0 <= j < |fired| ==> fresh(fired[j]) && fired[j].owner == ByEnemy
      ensures EnemyTurnsTo(views, turns, dt, ps, bs, obstacles, host)
      ensures Shots(projectiles) == old(Shots(projectiles)) + EnemyVolley(turns) && unchanged(bots)
      ensures forall i :: 0 <= i < |enemies| ==> EnemyArrived(enemies[i], turns[i], old(enemies[i].health))
    {
      turns := EnemyTurnsExist(views, dt, ps, bs, obstacles, host);
      var places := BotPositions(bots);
      fired := StepEnemies(enemies, places, dt, host, views, turns, ps);
      ShotsAppend(projectiles, fired);
      projectiles := projectiles + fired;
    }

    /** The forEach over the enemies; the shots they fire, in order. */
    method StepEnemies(es: seq<Enemy>, bs: seq<Vec>, dt: real, host: Host, ghost views: seq<EnemyView>,
                       ghost turns: seq<EnemyTurn>, ghost ps: Vec) returns (fired: seq<Projectile>)
      requires Distinct(es) && ps == player.Position()
      requires |views| == |es| && forall j :: 0 <= j < |es| ==> views[j] == es[j].View()
      requires EnemyTurnsTo(views, turns, dt, ps, bs, obstacles, host)
      modifies es
      ensures Distinct(fired)
      ensures forall j :: 0 <= j < |fired| ==> fresh(fired[j]) && fired[j].owner == ByEnemy
      ensures Shots(fired) == EnemyVolley(turns)
      ensures forall i :: 0 <= i < |es| ==> EnemyArrived(es[i], turns[i], old(es[i].health))
    {
      fired := [];
      for i := 0 to |es|
        invariant Distinct(fired)
        invariant forall j :: 0 <= j < |fired| ==> fresh(fired[j]) && fired[j].owner == ByEnemy
        invariant Shots(fired) == EnemyVolley(turns[..i])
        invariant forall j :: 0 <= j < i ==> EnemyArrived(es[j], turns[j], old(es[j].health))
        invariant forall j :: i <= j < |es| ==> unchanged(es[j])
      {
        ghost var before := fired;
        fired := StepEnemy(es[i], bs, dt, host, i, views, turns, ps, fired);
        assert forall j :: 0 <= j < |before| ==> fired[j] == before[j];
      }
      assert turns[..|es|] == turns;
    }

    /**
     * One enemy's turn: its update, then a shot at the player if off cooldown
     * and the aim is not its own position; the shot is appended to `fired`.
     */
    method StepEnemy(e: Enemy, bs: seq<Vec>, dt: real, host: Host, i: nat, ghost views: seq<EnemyView>,
                     ghost turns: seq<EnemyTurn>, ghost ps: Vec, fired: seq<Projectile>) returns (more: seq<Projectile>)
      requires ps == player.Position()
      requires EnemyTurnsTo(views, turns, dt, ps, bs, obstacles, host)
      requires i < |views| && e.View() == views[i]
      requires Distinct(fired) && Shots(fired) == EnemyVolley(turns[..i])
      modifies e
      ensures EnemyArrived(e, turns[i], old(e.health))
      ensures Distinct(more) && Shots(more) == EnemyVolley(turns[..i + 1])
      ensures |more| >= |fired| && more[..|fired|] == fired
      ensures forall j :: |fired| <= j < |more| ==> fresh(more[j]) && more[j].owner == ByEnemy
    {
      ghost var u := EnemyTakeTurn(views[i], dt, ps, bs, obstacles, host);
      EnemyVolleyStep(turns, i);
      e.Update(dt, player, bs, obstacles, host);
      more := fired;
      if e.CanShoot() && DistSq(e.Position(), player.Position()) > 0.0 {
        var p := e.Shoot(player, host);
        ShotsAppend(fired, [p]);
        more := fired + [p];
      }
    }

    /** checkObstacleCollision: the projectile's centre is strictly inside some obstacle. */
    predicate CheckObstacleCollision(p: Projectile)
      reads p
    {
      AnyContains(obstacles, p.Position())
    }

    /** The projectiles the first filter keeps: in no obstacle and inside the field. */
    function Surviving(ps: seq<Projectile>): set<Projectile>
      reads ps
    {
      set p | p in ps && Survives(obstacles, width, height, p.View())
    }

    /**
     * The first filter: every projectile moves by dt, then is kept iff it is
     * in no obstacle and inside the field, in order. Each projectile's verdict
     * depends on its own position only, so moving all before judging any is
     * the same as the source's move-and-judge per element.
     */
    method AdvanceProjectiles(dt: real)
      requires Distinct(projectiles)
      modifies this`projectiles, projectiles
      ensures forall p :: p in old(projectiles) ==> p.View() == Advance(old(p.View()), dt)
      ensures var kept := Surviving(old(projectiles)); projectiles == Filter((p: Projectile) => p in kept, old(projectiles))
      ensures forall p :: p in projectiles <==> p in old(projectiles) && Survives(obstacles, width, height, p.View())
      ensures Distinct(projectiles) && WorldView() == old(WorldView())
      ensures Shots(projectiles) == Flight(old(Shots(projectiles)), dt, obstacles, width, height)
    {
      MoveProjectiles(dt);
      projectiles := KeepSurvivors(projectiles);
    }

    /** `proj.update(dt)` on every projectile. */
    method MoveProjectiles(dt: real)
      requires Distinct(projectiles)
      modifies projectiles
      ensures forall p :: p in projectiles ==> p.View() == Advance(old(p.View()), dt)
      ensures Shots(projectiles) == Moved(old(Shots(projectiles)), dt)
      ensures WorldView() == old(WorldView())
    {
      for i := 0 to |projectiles|
        invariant forall j :: 0 <= j < i ==> projectiles[j].View() == Advance(old(projectiles[j].View()), dt)
        invariant forall j :: i <= j < |projectiles| ==> projectiles[j].View() == old(projectiles[j].View())
      {
        projectiles[i].Update(dt);
      }
    }

    /** The obstacle and bounds verdicts of the first filter, in order. */
    method KeepSurvivors(ps: seq<Projectile>) returns (kept: seq<Projectile>)
      ensures var s := Surviving(ps); kept == Filter((p: Projectile) => p in s, ps)
      ensures forall p :: p in kept <==> p in ps && Survives(obstacles, width, height, p.View())
      ensures Distinct(ps) ==> Distinct(kept)
      ensures Shots(kept) == Culled(Shots(ps), obstacles, width, height)
    {
      ghost var s := Surviving(ps);
      ghost var keep := (p: Projectile) => p in s;
      kept := [];
      for i := 0 to |ps|
        invariant kept == Filter(keep, ps[..i])
      {
        var p := ps[i];
        FilterStep(keep, ps, i);
        if CheckObstacleCollision(p) {
        } else if p.x < 0.0 || p.x > width || p.y < 0.0 || p.y > height {
        } else {
          kept := kept + [p];
        }
      }
      assert ps[..|ps|] == ps;
      forall p
        ensures p in kept <==> p in ps && Survives(obstacles, width, height, p.View())
      {
        FilterMembership(keep, ps, p);
      }
      if Distinct(ps) {
        FilterDistinct(keep, ps);
      }
      FilterShots(keep, (v: Shot) => Survives(obstacles, width, height, v), ps);
    }

    /** The projectiles of ps whose shots hit nothing in world w. */
    function MissingIn(ps: seq<Projectile>, m: real, w: World): set<Projectile>
      reads ps
    {
      set p | p in ps && ImpactOf(p.View(), m, w).Miss?
    }

    /** The projectiles that hit nothing in the current world. */
    function Missing(ps: seq<Projectile>): set<Projectile>
      reads this`settings, this`bots, this`enemies, player, bots, enemies, ps
    {
      MissingIn(ps, settings.damageMultiplier, WorldView())
    }

    /**
     * checkProjectileCollisions: each projectile in order either damages the
     * one agent it hits first and is removed, or is kept. Since hits depend on
     * positions only, the kept ones are those that miss the world as it was
     * before the pass.
     */
    method CheckProjectileCollisions()
      requires Distinct(bots) && Distinct(enemies) && Distinct(projectiles)
      modifies this`projectiles, player`health, bots`health, enemies`health
      ensures OnlyHealths(bots, enemies)
      ensures WorldView() == Resolve(old(WorldView()), old(Shots(projectiles)), settings.damageMultiplier).world
      ensures var missed := old(Missing(projectiles));
        projectiles == Filter((p: Projectile) => p in missed, old(projectiles))
      ensures Shots(projectiles) == Resolve(old(WorldView()), old(Shots(projectiles)), settings.damageMultiplier).kept
      ensures forall p :: p in projectiles ==> p in old(projectiles)
      ensures Distinct(projectiles)
    {
      ghost var missed := Missing(projectiles);
      KeptShots(projectiles, missed, WorldView(), settings.damageMultiplier);
      ghost var left := Shots(Filter((p: Projectile) => p in missed, projectiles));
      var kept := ResolveHits(projectiles);
      assert Shots(kept) == left;
      projectiles := kept;
    }

    /** The collision filter's loop over ps: damage the first agent each shot hits, keep the shots that miss. */
    method ResolveHits(ps: seq<Projectile>) returns (kept: seq<Projectile>)
      requires Distinct(bots) && Distinct(enemies) && Distinct(ps)
      modifies player`health, bots`health, enemies`health
      ensures OnlyHealths(bots, enemies)
      ensures WorldView() == Resolve(old(WorldView()), old(Shots(ps)), settings.damageMultiplier).world
      ensures var missed := old(Missing(ps)); kept == Filter((p: Projectile) => p in missed, ps)
      ensures forall p :: p in kept ==> p in ps
      ensures Distinct(kept)
      ensures unchanged(ps)
    {
      var m := settings.damageMultiplier;
      ghost var w0 := WorldView();
      ghost var shots := Shots(ps);
      ghost var missed := Missing(ps);
      ghost var keep := (p: Projectile) => p in missed;
      kept := [];
      for i := 0 to |ps|
        invariant WorldView() == Resolve(w0, shots[..i], m).world
        invariant kept == Filter(keep, ps[..i])
        invariant OnlyHealths(bots, enemies)
      {
        var p := ps[i];
        var s := p.View();
        assert s == shots[i];
        ResolveStep(w0, shots, i, m);
        FilterStep(keep, ps, i);
        assert keep(p) <==> ImpactOf(s, m, w0).Miss?;
        var impact := ImpactIn(s, m, WorldView());
        ApplyImpact(impact);
        if impact.Miss? {
          kept := kept + [p];
        }
      }
      assert shots[..|ps|] == shots && ps[..|ps|] == ps;
      forall p
        ensures p in kept ==> p in ps
      {
        FilterMembership(keep, ps, p);
      }
      FilterDistinct(keep, ps);
    }

    /** takeDamage on the agent the impact names. */
    method ApplyImpact(impact: Impact)
      requires Distinct(bots) && Distinct(enemies)
      modifies player`health, bots`health, enemies`health
      ensures WorldView() == Apply(old(WorldView()), impact)
      ensures OnlyHealths(bots, enemies)
    {
      match impact
      case Miss =>
      case HitPlayer(a) =>
        player.TakeDamage(a);
      case HitBot(k, a) =>
        if k < |bots| {
          bots[k].TakeDamage(a);
          assert BotFighters(bots) == old(BotFighters(bots))[k := bots[k].AsFighter()];
        }
      case HitEnemy(k, a) =>
        if k < |enemies| {
          enemies[k].TakeDamage(a);
          assert Fighters(enemies) == old(Fighters(enemies))[k := enemies[k].AsFighter()];
        }
    }

    /** The dead-entity cull: enemies and bots with health 0 leave their arrays, the rest keep their order. */
    method RemoveDead()
      requires Distinct(bots) && Distinct(enemies)
      modifies this`enemies, this`bots
      ensures var live := old(LiveEnemies(enemies)); enemies == Filter((e: Enemy) => e in live, old(enemies))
      ensures var live := old(LiveBots(bots)); bots == Filter((b: Bot) => b in live, old(bots))
      ensures forall e :: e in enemies <==> e in old(enemies) && e.health > 0.0
      ensures forall b :: b in bots <==> b in old(bots) && b.health > 0.0
      ensures Distinct(bots) && Distinct(enemies)
      ensures Standing(old(bots), old(enemies)) == old(Standing(bots, enemies))
    {
      var es := AliveEnemies(enemies);
      var bs := AliveBots(bots);
      SetRows(es, bs);
    }

    /** Replacing the rows changes no agent. */
    method SetRows(es: seq<Enemy>, bs: seq<Bot>)
      modifies this`enemies, this`bots
      ensures enemies == es && bots == bs
      ensures Standing(old(bots), old(enemies)) == old(Standing(bots, enemies))
    {
      enemies, bots := es, bs;
    }
  }
}

=== FILE: geometry.dfy ===
/**
 * Field geometry shared by every entity: points, the obstacle rectangle,
 * squared distances, the two rectangle tests (strict containment of a point,
 * overlap with a disc), per-axis sliding movement and the nearest-point scan.
 *
 * The source compares `Math.sqrt` distances with non-negative constants; here
 * every such comparison is stated on squared distances, which is equivalent
 * for an exact square root: sqrt(d) < k iff 0 < k and d < k * k, and
 * sqrt(d) > k iff k < 0 or k * k < d (for d >= 0).
 */
module Geometry {
  import opened Optional

  /** A point or a displacement in field coordinates. */
  datatype Vec = Vec(x: real, y: real)

  /** An obstacle: an axis-aligned rectangle with top-left corner (x, y). */
  datatype Obstacle = Obstacle(x: real, y: real, width: real, height: real)

  /**
   * What the host's floating-point library supplies, kept abstract:
   * `unit(dx, dy)` is (dx / len, dy / len) with len = Math.sqrt(dx * dx + dy * dy),
   * and `perpendicular(dx, dy, left)` is (cos a, sin a) for
   * a = Math.atan2(dy, dx) + PI / 2 when `left`, and - PI / 2 otherwise.
   */
  datatype Host = Host(unit: (real, real) -> Vec, perpendicular: (real, real, bool) -> Vec)

  function Sub(a: Vec, b: Vec): Vec { Vec(a.x - b.x, a.y - b.y) }

  /** `from` displaced by `dir` scaled by `k`. */
  function Offset(from: Vec, dir: Vec, k: real): Vec { Vec(from.x + dir.x * k, from.y + dir.y * k) }

  /** Squared Euclidean distance, dx * dx + dy * dy with dx = b.x - a.x, dy = b.y - a.y. */
  function DistSq(a: Vec, b: Vec): real
  {
    (b.x - a.x) * (b.x - a.x) + (b.y - a.y) * (b.y - a.y)
  }

  /** The distance from a to b is strictly below `limit`. */
  predicate Closer(a: Vec, b: Vec, limit: real)
  {
    0.0 < limit && DistSq(a, b) < limit * limit
  }

  /** The distance from a to b is strictly above `limit`. */
  predicate Farther(a: Vec, b: Vec, limit: real)
  {
    limit < 0.0 || limit * limit < DistSq(a, b)
  }

  /** Game.ts checkObstacleCollision: the point lies strictly inside the rectangle; an edge is outside. */
  predicate Contains(o: Obstacle, p: Vec)
  {
    p.x > o.x && p.x < o.x + o.width && p.y > o.y && p.y < o.y + o.height
  }

  /** The entities' checkCollision: a disc of radius r at p overlaps the rectangle (the rectangle expanded by r, strict). */
  predicate Touches(o: Obstacle, p: Vec, r: real)
  {
    p.x + r > o.x && p.x - r < o.x + o.width && p.y + r > o.y && p.y - r < o.y + o.height
  }

  /** `obstacles.some(obs => Contains(obs, p))`. */
  function AnyContains(obstacles: seq<Obstacle>, p: Vec): (b: bool)
    ensures b <==> exists i :: 0 <= i < |obstacles| && Contains(obstacles[i], p)
  {
    if obstacles == [] then false
    else Contains(obstacles[0], p) || AnyContains(obstacles[1..], p)
  }

  /** `obstacles.some(obs => Touches(obs, p, r))`: the candidate position is blocked. */
  function Blocked(obstacles: seq<Obstacle>, p: Vec, r: real): (b: bool)
    ensures b <==> exists i :: 0 <= i < |obstacles| && Touches(obstacles[i], p, r)
  {
    if obstacles == [] then false
    else Touches(obstacles[0], p, r) || Blocked(obstacles[1..], p, r)
  }

  /**
   * The per-axis move shared by Player, Bot and Enemy: try the new x with the
   * old y, then the new y with the x just decided; each candidate is taken
   * only when a disc of radius r there overlaps no obstacle.
   */
  function Slide(obstacles: seq<Obstacle>, r: real, from: Vec, to: Vec): Vec
  {
    var x := if Blocked(obstacles, Vec(to.x, from.y), r) then from.x else to.x;
    var y := if Blocked(obstacles, Vec(x, to.y), r) then from.y else to.y;
    Vec(x, y)
  }

  /**
   * Each axis keeps its old coordinate or takes the candidate one; a clear
   * candidate is always taken and a blocked one never is.
   */
  lemma SlideAxes(obstacles: seq<Obstacle>, r: real, from: Vec, to: Vec)
    ensures var p := Slide(obstacles, r, from, to);
      && (p.x == from.x || p.x == to.x)
      && (p.y == from.y || p.y == to.y)
      && (!Blocked(obstacles, Vec(to.x, from.y), r) ==> p.x == to.x)
      && (p.x != from.x ==> !Blocked(obstacles, Vec(to.x, from.y), r))
      && (!Blocked(obstacles, Vec(p.x, to.y), r) ==> p.y == to.y)
      && (p.y != from.y ==> !Blocked(obstacles, Vec(p.x, to.y), r))
  {
  }

  /** A disc that starts clear of every radius-expanded obstacle is still clear after the move. */
  lemma SlideKeepsClear(obstacles: seq<Obstacle>, r: real, from: Vec, to: Vec)
    requires !Blocked(obstacles, from, r)
    ensures !Blocked(obstacles, Slide(obstacles, r, from, to), r)
  {
  }

  /**
   * The min-tracking scan used for target and cover choice: the index of the
   * first point at minimal distance from `from`. The candidate is replaced
   * only when a later point is strictly closer, so ties keep the earlier one.
   */
  function Nearest(from: Vec, pts: seq<Vec>): (k: Option<nat>)
    ensures k.None? <==> pts == []
    ensures k.Some? ==> k.value < |pts|
    decreases |pts|
  {
    if pts == [] then None
    else
      var k := Nearest(from, pts[..|pts| - 1]);
      if k.None? || DistSq(from, pts[|pts| - 1]) < DistSq(from, pts[k.value]) then Some(|pts| - 1) else k
  }

  /** k is the first index of minimal distance from `from`. */
  predicate IsFirstNearest(from: Vec, pts: seq<Vec>, k: nat)
  {
    && k < |pts|
    && (forall j :: 0 <= j < |pts| ==> DistSq(from, pts[k]) <= DistSq(from, pts[j]))
    && (forall j :: 0 <= j < k ==> DistSq(from, pts[k]) < DistSq(from, pts[j]))
  }

  lemma {:induction false} NearestIsFirstMinimum(from: Vec, pts: seq<Vec>)
    requires pts != []
    ensures IsFirstNearest(from, pts, Nearest(from, pts).value)
    decreases |pts|
  {
    var n := |pts| - 1;
    var front := pts[..n];
    if front != [] {
      NearestIsFirstMinimum(from, front);
      var k := Nearest(from, front).value;
      assert forall j :: 0 <= j < n ==> front[j] == pts[j];
      if DistSq(from, pts[n]) < DistSq(from, pts[k]) {
        assert Nearest(from, pts) == Some(n);
      } else {
        assert Nearest(from, pts) == Some(k);
      }
    }
  }

  /** The first nearest index is unique, so the scan computes exactly it. */
  lemma NearestCharacterised(from: Vec, pts: seq<Vec>, k: nat)
    requires IsFirstNearest(from, pts, k)
    ensures Nearest(from, pts) == Some(k)
  {
    NearestIsFirstMinimum(from, pts);
  }
}

=== FILE: optional.dfy ===
/** An optional value: the model's counterpart of a nullable reference or `T | null`. */
module Optional {
  datatype Option<+T> = None | Some(value: T)
}

=== FILE: player.dfy ===
/** Player.ts: the human-controlled agent. */
module Players {
  import opened Geometry
  import opened Agent
  import opened Projectiles

  const PlayerRadius: real := 20.0
  const PlayerMaxHealth: real := 100.0
  const PlayerSpeed: real := 250.0
  const PlayerShootDelay: real := 0.2
  const PlayerShotSpeed: real := 800.0
  const PlayerShotDamage: real := 25.0

  /** The raw (unnormalised) movement intent. */
  datatype Direction = Direction(dx: int, dy: int)

  /** The held keys summed: 'w' adds -1 to dy, 's' +1 to dy, 'a' -1 to dx, 'd' +1 to dx. */
  function KeyDirection(keys: set<string>): Direction
  {
    Direction((if "d" in keys then 1 else 0) - (if "a" in keys then 1 else 0),
              (if "s" in keys then 1 else 0) - (if "w" in keys then 1 else 0))
  }

  /** Each component is -1, 0 or 1, and opposite keys cancel. */
  lemma KeyDirectionCancels(keys: set<string>)
    ensures -1 <= KeyDirection(keys).dx <= 1 && -1 <= KeyDirection(keys).dy <= 1
    ensures KeyDirection(keys).dx == 0 <==> ("a" in keys <==> "d" in keys)
    ensures KeyDirection(keys).dy == 0 <==> ("w" in keys <==> "s" in keys)
    ensures KeyDirection(keys).dx == 1 <==> "d" in keys && "a" !in keys
    ensures KeyDirection(keys).dy == -1 <==> "w" in keys && "s" !in keys
  {
  }

  /** Where the held keys would carry the player in dt seconds, before obstacles are considered. */
  function PlayerCandidate(pos: Vec, dt: real, d: Direction, host: Host): Vec
  {
    var u := host.unit(d.dx as real, d.dy as real);
    Vec(pos.x + u.x * PlayerSpeed * dt, pos.y + u.y * PlayerSpeed * dt)
  }

  /** The player's new position after one tick of Player.update. */
  function PlayerMotion(pos: Vec, dt: real, keys: set<string>, obstacles: seq<Obstacle>, host: Host): Vec
  {
    var d := KeyDirection(keys);
    if d.dx == 0 && d.dy == 0 then pos
    else Slide(obstacles, PlayerRadius, pos, PlayerCandidate(pos, dt, d, host))
  }

  /** No intent (no keys, or only opposite pairs) leaves the player where it is. */
  lemma PlayerIdleWithoutIntent(pos: Vec, dt: real, keys: set<string>, obstacles: seq<Obstacle>, host: Host)
    requires ("a" in keys <==> "d" in keys) && ("w" in keys <==> "s" in keys)
    ensures PlayerMotion(pos, dt, keys, obstacles, host) == pos
  {
  }

  /** A player clear of every radius-expanded obstacle stays clear. */
  lemma PlayerStaysClear(pos: Vec, dt: real, keys: set<string>, obstacles: seq<Obstacle>, host: Host)
    requires !Blocked(obstacles, pos, PlayerRadius)
    ensures !Blocked(obstacles, PlayerMotion(pos, dt, keys, obstacles, host), PlayerRadius)
  {
    var d := KeyDirection(keys);
    if d.dx != 0 || d.dy != 0 {
      SlideKeepsClear(obstacles, PlayerRadius, pos, PlayerCandidate(pos, dt, d, host));
    }
  }

  class Player {
    var x: real
    var y: real
    const radius: real := PlayerRadius
    var health: real
    const maxHealth: real := PlayerMaxHealth
    const speed: real := PlayerSpeed
    var shootCooldown: real
    const shootDelay: real := PlayerShootDelay

    constructor (x: real, y: real)
      ensures Position() == Vec(x, y) && health == PlayerMaxHealth && shootCooldown == 0.0
    {
      this.x := x;
      this.y := y;
      health := PlayerMaxHealth;
      shootCooldown := 0.0;
    }

    function Position(): Vec
      reads this
    {
      Vec(x, y)
    }

    function AsFighter(): Fighter
      reads this
    {
      Fighter(Position(), radius, health)
    }

    /** The disc of the player, placed at (px, py), overlaps some obstacle. */
    predicate CheckCollision(px: real, py: real, obstacles: seq<Obstacle>)
    {
      Blocked(obstacles, Vec(px, py), radius)
    }

    /** Keys to direction, per-axis move, then the cooldown countdown. */
    method Update(dt: real, keys: set<string>, obstacles: seq<Obstacle>, host: Host)
      modifies this`x, this`y, this`shootCooldown
      ensures Position() == PlayerMotion(old(Position()), dt, keys, obstacles, host)
      ensures shootCooldown == CooledDown(old(shootCooldown), dt)
    {
      var dx, dy := 0, 0;
      if "w" in keys { dy := dy - 1; }
      if "s" in keys { dy := dy + 1; }
      if "a" in keys { dx := dx - 1; }
      if "d" in keys { dx := dx + 1; }
      assert Direction(dx, dy) == KeyDirection(keys);

      if dx != 0 || dy != 0 {
        var u := host.unit(dx as real, dy as real);
        var newX := x + u.x * speed * dt;
        var newY := y + u.y * speed * dt;
        assert u == host.unit(KeyDirection(keys).dx as real, KeyDirection(keys).dy as real);
        assert newX == old(Position()).x + u.x * PlayerSpeed * dt && newY == old(Position()).y + u.y * PlayerSpeed * dt;
        assert Vec(newX, newY) == PlayerCandidate(old(Position()), dt, KeyDirection(keys), host);
        MoveAxes(newX, newY, obstacles);
      }

      shootCooldown := CooledDown(shootCooldown, dt);
    }

    /** Take the new x if that spot is clear, then the new y if the spot at the current x is clear. */
    method MoveAxes(newX: real, newY: real, obstacles: seq<Obstacle>)
      modifies this`x, this`y
      ensures Position() == Slide(obstacles, radius, old(Position()), Vec(newX, newY))
    {
      if !CheckCollision(newX, y, obstacles) {
        x := newX;
      }
      if !CheckCollision(x, newY, obstacles) {
        y := newY;
      }
    }

    predicate CanShoot()
      reads this
    {
      shootCooldown <= 0.0
    }

    /**
     * Fire toward (targetX, targetY) unless on cooldown. The source divides by
     * the aim length without a zero guard, so the target must differ from the
     * player's position.
     */
    method Shoot(targetX: real, targetY: real, host: Host) returns (p: Projectile?)
      requires DistSq(Position(), Vec(targetX, targetY)) > 0.0
      modifies this`shootCooldown
      ensures p == null <==> old(shootCooldown) > 0.0
      ensures p == null ==> shootCooldown == old(shootCooldown)
      ensures p != null ==> fresh(p) && shootCooldown == PlayerShootDelay
      ensures p != null ==> p.View() == Shot(Position(), Velocity(host, Position(), Vec(targetX, targetY), PlayerShotSpeed),
                                             ByPlayer, PlayerShotDamage, ProjectileRadius)
    {
      if !CanShoot() {
        return null;
      }
      shootCooldown := shootDelay;
      var v := Velocity(host, Position(), Vec(targetX, targetY), PlayerShotSpeed);
      p := new Projectile(x, y, v.x, v.y, ByPlayer, PlayerShotDamage);
    }

    method TakeDamage(amount: real)
      modifies this`health
      ensures health == Damaged(old(health), amount)
    {
      health := Damaged(health, amount);
    }
  }
}

=== FILE: projectile.dfy ===
/** Projectile.ts: a linearly moving shot with an owner tag and a flat damage payload. */
module Projectiles {
  import opened Geometry

  /** Which faction fired the shot: 'player' | 'bot' | 'enemy'. */
  datatype Owner = ByPlayer | ByBot | ByEnemy

  /** The value of a projectile: position, velocity, owner, damage and radius. */
  datatype Shot = Shot(pos: Vec, vel: Vec, owner: Owner, damage: real, radius: real)

  /** Every projectile has radius 5. */
  const ProjectileRadius: real := 5.0

  /** The launch velocity toward `to`: the unit direction (dx / len, dy / len) scaled by `speed`. */
  function Velocity(host: Host, from: Vec, to: Vec, speed: real): Vec
  {
    var u := host.unit(to.x - from.x, to.y - from.y);
    Vec(u.x * speed, u.y * speed)
  }

  /** Linear motion over dt seconds. */
  function Advance(s: Shot, dt: real): Shot
  {
    s.(pos := Offset(s.pos, s.vel, dt))
  }

  /** Motion moves the position by velocity * dt and changes nothing else. */
  lemma AdvanceMovesOnlyPosition(s: Shot, dt: real)
    ensures Advance(s, dt).pos == Vec(s.pos.x + s.vel.x * dt, s.pos.y + s.vel.y * dt)
    ensures Advance(s, dt).vel == s.vel && Advance(s, dt).owner == s.owner
    ensures Advance(s, dt).damage == s.damage && Advance(s, dt).radius == s.radius
  {
  }

  /** A zero-length tick is the identity. */
  lemma AdvanceZero(s: Shot)
    ensures Advance(s, 0.0) == s
  {
  }

  /** Two ticks equal one tick of the summed length (over the reals). */
  lemma AdvanceAdditive(s: Shot, a: real, b: real)
    ensures Advance(Advance(s, a), b) == Advance(s, a + b)
  {
    var p, v := s.pos, s.vel;
    assert v.x * (a + b) == v.x * a + v.x * b;
    assert v.y * (a + b) == v.y * a + v.y * b;
    assert Offset(Offset(p, v, a), v, b) == Offset(p, v, a + b);
  }

  class Projectile {
    var x: real
    var y: real
    const vx: real
    const vy: real
    const owner: Owner
    const damage: real
    const radius: real := ProjectileRadius

    function Position(): Vec
      reads this
    {
      Vec(x, y)
    }

    function View(): Shot
      reads this
    {
      Shot(Vec(x, y), Vec(vx, vy), owner, damage, radius)
    }

    constructor (x: real, y: real, vx: real, vy: real, owner: Owner, damage: real)
      ensures View() == Shot(Vec(x, y), Vec(vx, vy), owner, damage, ProjectileRadius)
    {
      this.x := x;
      this.y := y;
      this.vx := vx;
      this.vy := vy;
      this.owner := owner;
      this.damage := damage;
    }

    /** One tick of linear motion; velocity, owner and damage stay as they were. */
    method Update(dt: real)
      modifies this`x, this`y
      ensures View() == Advance(old(View()), dt)
    {
      x := x + vx * dt;
      y := y + vy * dt;
    }
  }

  /** The values of a row of projectiles. */
  function Shots(ps: seq<Projectile>): (ss: seq<Shot>)
    reads ps
    ensures |ss| == |ps| && forall i :: 0 <= i < |ps| ==> ss[i] == ps[i].View()
  {
    seq(|ps|, i requires 0 <= i < |ps| reads ps => ps[i].View())
  }

  /** The values of two rows laid end to end. */
  lemma ShotsAppend(a: seq<Projectile>, b: seq<Projectile>)
    ensures Shots(a + b) == Shots(a) + Shots(b)
  {
  }

  /** Appending two batches of projectiles one after the other appends them together. */
  lemma RowsAppend(a: seq<Projectile>, b: seq<Projectile>, c: seq<Projectile>)
    ensures (a + b) + c == a + (b + c)
  {
  }
}

=== FILE: rules.dfy ===
/**
 * The value-level rules of Game.update: the dt clamp, the projectile cull of
 * the first filter, and the projectile-versus-agent pass of
 * checkProjectileCollisions, stated over shots and fighters.
 */
module Rules {
  import opened Optional
  import opened Geometry
  import opened Agent
  import opened Projectiles
  import opened Seqs

  /** The longest tick gameLoop hands to update, in seconds. */
  const MaxTick: real := 0.1

  /** gameLoop's dt: the elapsed milliseconds in seconds, `Math.min`-ed with 0.1. */
  function ClampDelta(currentTime: real, lastTime: real): (dt: real)
    ensures dt <= MaxTick
    ensures dt <= (currentTime - lastTime) / 1000.0
    ensures dt == MaxTick || dt == (currentTime - lastTime) / 1000.0
  {
    var raw := (currentTime - lastTime) / 1000.0;
    if raw < MaxTick then raw else MaxTick
  }

  /** The negated out-of-bounds test: the closed rectangle [0, width] x [0, height]. */
  predicate InField(p: Vec, width: real, height: real)
  {
    !(p.x < 0.0 || p.x > width || p.y < 0.0 || p.y > height)
  }

  /** The first filter's verdict on a moved shot: not strictly inside any obstacle, and inside the field. */
  predicate Survives(obstacles: seq<Obstacle>, width: real, height: real, s: Shot)
  {
    !AnyContains(obstacles, s.pos) && InField(s.pos, width, height)
  }

  /**
   * A shot inside the field is dropped iff its centre is strictly inside some
   * obstacle; a centre on an obstacle's edge is not inside it.
   */
  lemma DroppedIffInside(obstacles: seq<Obstacle>, width: real, height: real, s: Shot)
    requires InField(s.pos, width, height)
    ensures !Survives(obstacles, width, height, s) <==> exists i :: 0 <= i < |obstacles| && Contains(obstacles[i], s.pos)
    ensures forall i :: 0 <= i < |obstacles| && (s.pos.x == obstacles[i].x || s.pos.y == obstacles[i].y ||
                                               s.pos.x == obstacles[i].x + obstacles[i].width ||
                                               s.pos.y == obstacles[i].y + obstacles[i].height)
                      ==> !Contains(obstacles[i], s.pos)
  {
  }

  /** Every shot of a row moved by dt. */
  function Moved(row: seq<Shot>, dt: real): (r: seq<Shot>)
    ensures |r| == |row| && forall k :: 0 <= k < |row| ==> r[k] == Advance(row[k], dt)
  {
    seq(|row|, k requires 0 <= k < |row| => Advance(row[k], dt))
  }

  /** The first filter's verdicts on a row of moved shots: the survivors, in order. */
  function Culled(row: seq<Shot>, obstacles: seq<Obstacle>, width: real, height: real): seq<Shot>
  {
    Filter((s: Shot) => Survives(obstacles, width, height, s), row)
  }

  /** The first filter on values: the row moves by dt and the shots that survive stay, in order. */
  function Flight(row: seq<Shot>, dt: real, obstacles: seq<Obstacle>, width: real, height: real): seq<Shot>
  {
    Culled(Moved(row, dt), obstacles, width, height)
  }

  /** A shot is in flight after the tick iff it is some shot of the row moved by dt and it survives. */
  lemma FlightMembers(row: seq<Shot>, dt: real, obstacles: seq<Obstacle>, width: real, height: real, s: Shot)
    ensures s in Flight(row, dt, obstacles, width, height) <==>
      Survives(obstacles, width, height, s) && exists k :: 0 <= k < |row| && s == Advance(row[k], dt)
  {
    var moved := Moved(row, dt);
    FilterMembership((s: Shot) => Survives(obstacles, width, height, s), moved, s);
    if s in moved {
      var k :| 0 <= k < |moved| && moved[k] == s;
      assert s == Advance(row[k], dt);
    }
  }

  /** Each part of a row flies on its own: the filter of a concatenation is the concatenation of the filters. */
  lemma FlightAppend(a: seq<Shot>, b: seq<Shot>, dt: real, obstacles: seq<Obstacle>, width: real, height: real)
    ensures Flight(a + b, dt, obstacles, width, height) == Flight(a, dt, obstacles, width, height) + Flight(b, dt, obstacles, width, height)
  {
    assert Moved(a + b, dt) == Moved(a, dt) + Moved(b, dt);
    FilterAppend((s: Shot) => Survives(obstacles, width, height, s), Moved(a, dt), Moved(b, dt));
  }

  /** checkEntityCollision: the shot's centre is nearer than the agent's radius plus 5. */
  predicate Hits(s: Shot, f: Fighter)
  {
    Closer(s.pos, f.pos, f.radius + 5.0)
  }

  /** The first agent, in array order, that the shot hits. */
  function FirstHit(s: Shot, fs: seq<Fighter>): (k: Option<nat>)
    ensures k.None? <==> forall j :: 0 <= j < |fs| ==> !Hits(s, fs[j])
    ensures k.Some? ==> k.value < |fs| && Hits(s, fs[k.value]) && forall j :: 0 <= j < k.value ==> !Hits(s, fs[j])
    decreases |fs|
  {
    if fs == [] then None
    else if Hits(s, fs[0]) then Some(0)
    else
      var rest := FirstHit(s, fs[1..]);
      assert forall j :: 1 <= j < |fs| ==> fs[j] == fs[1..][j - 1];
      if rest.None? then None else Some(rest.value + 1)
  }

  /** Two rows the shot hits at the same places have the same first hit. */
  lemma FirstHitByHits(s: Shot, fs: seq<Fighter>, gs: seq<Fighter>)
    requires |fs| == |gs|
    requires forall j :: 0 <= j < |fs| ==> (Hits(s, fs[j]) <==> Hits(s, gs[j]))
    ensures FirstHit(s, fs) == FirstHit(s, gs)
  {
    var a, b := FirstHit(s, fs), FirstHit(s, gs);
    if a.Some? && b.Some? {
      assert !(a.value < b.value) && !(b.value < a.value);
    }
  }

  /** A bot shot's damage under the damage multiplier. */
  function Scaled(damage: real, multiplier: real): real
  {
    damage * multiplier
  }

  /** The agents a projectile can meet: the player, the bots and the enemies, in array order. */
  datatype World = World(player: Fighter, bots: seq<Fighter>, enemies: seq<Fighter>)

  /** What one projectile does: nothing, or damage to exactly one agent. */
  datatype Impact = Miss | HitEnemy(enemy: nat, amount: real) | HitPlayer(amount: real) | HitBot(bot: nat, amount: real)

  /**
   * The filter callback of checkProjectileCollisions: player and bot shots
   * look for the first enemy hit, with bot damage scaled by the multiplier;
   * enemy shots look at the player first, then the first bot hit.
   */
  function ImpactOf(s: Shot, multiplier: real, w: World): Impact
  {
    match s.owner
    case ByEnemy =>
      if Hits(s, w.player) then HitPlayer(s.damage)
      else
        var k := FirstHit(s, w.bots);
        if k.Some? then HitBot(k.value, s.damage) else Miss
    case _ =>
      var k := FirstHit(s, w.enemies);
      if k.Some? then HitEnemy(k.value, if s.owner == ByBot then Scaled(s.damage, multiplier) else s.damage) else Miss
  }

  /** takeDamage on the one agent an impact names. */
  function Apply(w: World, i: Impact): World
  {
    match i
    case Miss => w
    case HitPlayer(a) => w.(player := w.player.(health := Damaged(w.player.health, a)))
    case HitBot(k, a) =>
      if k < |w.bots| then w.(bots := w.bots[k := w.bots[k].(health := Damaged(w.bots[k].health, a))]) else w
    case HitEnemy(k, a) =>
      if k < |w.enemies| then w.(enemies := w.enemies[k := w.enemies[k].(health := Damaged(w.enemies[k].health, a))]) else w
  }

  /**
   * The faction rule: a player or bot shot can damage only enemies, an enemy
   * shot only the player or a bot.
   */
  lemma FactionIsolation(s: Shot, multiplier: real, w: World)
    ensures s.owner != ByEnemy ==>
              var after := Apply(w, ImpactOf(s, multiplier, w));
              after.player == w.player && after.bots == w.bots
    ensures s.owner == ByEnemy ==> Apply(w, ImpactOf(s, multiplier, w)).enemies == w.enemies
  {
  }

  /**
   * A player or bot shot hits the first enemy it touches, for its damage
   * (scaled by the multiplier for a bot's shot), or nothing when it touches
   * no enemy.
   */
  lemma FriendlyShotChoice(s: Shot, multiplier: real, w: World)
    requires s.owner != ByEnemy
    ensures var i := ImpactOf(s, multiplier, w);
      && (i.HitEnemy? || i.Miss?)
      && (i.Miss? <==> forall j :: 0 <= j < |w.enemies| ==> !Hits(s, w.enemies[j]))
      && (i.HitEnemy? ==>
            && i.enemy < |w.enemies| && Hits(s, w.enemies[i.enemy])
            && (forall j :: 0 <= j < i.enemy ==> !Hits(s, w.enemies[j]))
            && i.amount == (if s.owner == ByBot then Scaled(s.damage, multiplier) else s.damage))
  {
    var k := FirstHit(s, w.enemies);
    if k.Some? {
      assert Hits(s, w.enemies[k.value]);
    }
  }

  /**
   * An enemy shot hits the player if it touches the player, otherwise the
   * first bot it touches, for its damage, or nothing.
   */
  lemma EnemyShotChoice(s: Shot, multiplier: real, w: World)
    requires s.owner == ByEnemy
    ensures var i := ImpactOf(s, multiplier, w);
      && (i.HitPlayer? || i.HitBot? || i.Miss?)
      && (i.HitPlayer? <==> Hits(s, w.player))
      && (i.HitPlayer? ==> i.amount == s.damage)
      && (i.HitBot? ==>
            && !Hits(s, w.player) && i.bot < |w.bots| && Hits(s, w.bots[i.bot])
            && (forall j :: 0 <= j < i.bot ==> !Hits(s, w.bots[j]))
            && i.amount == s.damage)
      && (i.Miss? <==> !Hits(s, w.player) && forall j :: 0 <= j < |w.bots| ==> !Hits(s, w.bots[j]))
  {
  }

  /** An impact changes the health of at most the one agent it names, by takeDamage. */
  lemma ApplyTouchesOne(w: World, i: Impact)
    ensures var after := Apply(w, i);
      && |after.bots| == |w.bots| && |after.enemies| == |w.enemies|
      && (!i.HitPlayer? ==> after.player == w.player)
      && (forall j :: 0 <= j < |w.bots| && !(i.HitBot? && i.bot == j) ==> after.bots[j] == w.bots[j])
      && (forall j :: 0 <= j < |w.enemies| && !(i.HitEnemy? && i.enemy == j) ==> after.enemies[j] == w.enemies[j])
      && (i.HitPlayer? ==> after.player.health == Damaged(w.player.health, i.amount))
      && (i.HitBot? && i.bot < |w.bots| ==> after.bots[i.bot].health == Damaged(w.bots[i.bot].health, i.amount))
      && (i.HitEnemy? && i.enemy < |w.enemies| ==>
            after.enemies[i.enemy].health == Damaged(w.enemies[i.enemy].health, i.amount))
  {
  }

  /** An agent with its health forgotten: all a hit test looks at. */
  function Body(f: Fighter): Fighter { f.(health := 0.0) }

  function Bodies(fs: seq<Fighter>): (bs: seq<Fighter>)
    ensures |bs| == |fs| && forall j :: 0 <= j < |fs| ==> bs[j] == Body(fs[j])
  {
    seq(|fs|, j requires 0 <= j < |fs| => Body(fs[j]))
  }

  /** Two worlds with the same agents in the same places, whatever their health. */
  predicate SamePlaces(w: World, v: World)
  {
    Body(w.player) == Body(v.player) && Bodies(w.bots) == Bodies(v.bots) && Bodies(w.enemies) == Bodies(v.enemies)
  }

  /** Two worlds whose agents, index by index, have the same health. */
  predicate SameHealths(w: World, v: World)
  {
    && w.player.health == v.player.health
    && |w.bots| == |v.bots| && (forall i :: 0 <= i < |w.bots| ==> w.bots[i].health == v.bots[i].health)
    && |w.enemies| == |v.enemies| && (forall i :: 0 <= i < |w.enemies| ==> w.enemies[i].health == v.enemies[i].health)
  }

  /** Rows of agents in the same places have the same first hit. */
  lemma FirstHitIgnoresHealth(s: Shot, fs: seq<Fighter>, gs: seq<Fighter>)
    requires Bodies(fs) == Bodies(gs)
    ensures FirstHit(s, fs) == FirstHit(s, gs)
  {
    assert |fs| == |Bodies(fs)| == |gs|;
    forall j | 0 <= j < |fs| ensures Hits(s, fs[j]) <==> Hits(s, gs[j]) {
      assert Bodies(fs)[j] == Bodies(gs)[j];
    }
    FirstHitByHits(s, fs, gs);
  }

  /** Hit tests ignore health, so a dead agent still in the arrays absorbs shots like a live one. */
  lemma ImpactIgnoresHealth(s: Shot, multiplier: real, w: World, v: World)
    requires SamePlaces(w, v)
    ensures ImpactOf(s, multiplier, w) == ImpactOf(s, multiplier, v)
  {
    assert Hits(s, w.player) == Hits(s, v.player);
    FirstHitIgnoresHealth(s, w.bots, v.bots);
    FirstHitIgnoresHealth(s, w.enemies, v.enemies);
  }

  lemma ApplyKeepsPlaces(w: World, i: Impact)
    ensures SamePlaces(w, Apply(w, i))
  {
    var after := Apply(w, i);
    ApplyTouchesOne(w, i);
    assert Bodies(after.bots) == Bodies(w.bots);
    assert Bodies(after.enemies) == Bodies(w.enemies);
  }

  /** The world after the collision pass, and the shots it keeps in order. */
  datatype Resolution = Resolution(world: World, kept: seq<Shot>)

  /** checkProjectileCollisions: each shot in order meets the world the earlier shots left. */
  function Resolve(w: World, shots: seq<Shot>, multiplier: real): Resolution
    decreases |shots|
  {
    if shots == [] then Resolution(w, [])
    else
      var n := |shots| - 1;
      var r := Resolve(w, shots[..n], multiplier);
      var i := ImpactOf(shots[n], multiplier, r.world);
      Resolution(Apply(r.world, i), r.kept + (if i.Miss? then [shots[n]] else []))
  }

  /** The pass changes health only: every agent keeps its place. */
  lemma {:induction false} ResolveKeepsPlaces(w: World, shots: seq<Shot>, multiplier: real)
    ensures SamePlaces(w, Resolve(w, shots, multiplier).world)
    decreases |shots|
  {
    if shots != [] {
      var n := |shots| - 1;
      var r := Resolve(w, shots[..n], multiplier);
      ResolveKeepsPlaces(w, shots[..n], multiplier);
      ApplyKeepsPlaces(r.world, ImpactOf(shots[n], multiplier, r.world));
    }
  }

  /** One step of the pass: the next shot's impact, judged in the world so far, is its impact in the starting world. */
  lemma ResolveStep(w: World, shots: seq<Shot>, i: nat, multiplier: real)
    requires i < |shots|
    ensures var r := Resolve(w, shots[..i], multiplier).world;
      && ImpactOf(shots[i], multiplier, r) == ImpactOf(shots[i], multiplier, w)
      && Resolve(w, shots[..i + 1], multiplier).world == Apply(r, ImpactOf(shots[i], multiplier, w))
  {
    var r := Resolve(w, shots[..i], multiplier).world;
    ResolveKeepsPlaces(w, shots[..i], multiplier);
    ImpactIgnoresHealth(shots[i], multiplier, w, r);
    assert shots[..i + 1][..i] == shots[..i];
  }

  /**
   * The kept shots are exactly those that hit nothing in the world as it was
   * before the pass, in their original order: hits are decided by position
   * alone, and positions do not change during the pass.
   */
  lemma {:induction false} ResolveKeepsMisses(w: World, shots: seq<Shot>, multiplier: real)
    ensures Resolve(w, shots, multiplier).kept == Filter((s: Shot) => ImpactOf(s, multiplier, w).Miss?, shots)
    decreases |shots|
  {
    if shots != [] {
      var n := |shots| - 1;
      var r := Resolve(w, shots[..n], multiplier);
      ResolveKeepsMisses(w, shots[..n], multiplier);
      ResolveKeepsPlaces(w, shots[..n], multiplier);
      ImpactIgnoresHealth(shots[n], multiplier, w, r.world);
    }
  }

  /** With non-negative damage, the pass never raises the player's health. */
  lemma {:induction false} ResolvePlayerHealthFalls(w: World, shots: seq<Shot>, multiplier: real)
    requires forall k :: 0 <= k < |shots| ==> shots[k].damage >= 0.0
    requires w.player.health >= 0.0
    ensures Resolve(w, shots, multiplier).world.player.health <= w.player.health
    decreases |shots|
  {
    if shots != [] {
      var n := |shots| - 1;
      var r := Resolve(w, shots[..n], multiplier);
      ResolvePlayerHealthFalls(w, shots[..n], multiplier);
      ApplyTouchesOne(r.world, ImpactOf(shots[n], multiplier, r.world));
    }
  }

  /** The five enemy spawn points of spawnEnemies. */
  const SpawnPoints: seq<Vec> := [Vec(1700.0, 200.0), Vec(1600.0, 800.0), Vec(1800.0, 500.0), Vec(1500.0, 100.0),
                                  Vec(1750.0, 900.0)]

  /** The respawn floor: below 3 enemies a batch of 5 is added. */
  function Respawned(n: nat): (m: nat)
    ensures m >= 3
    ensures n < 3 ==> m == n + |SpawnPoints|
    ensures n >= 3 ==> m == n
  {
    if n < 3 then n + |SpawnPoints| else n
  }
}

=== FILE: seqs.dfy ===
/**
 * The order-preserving `Array.prototype.filter` that the game loop applies to
 * its projectile, enemy and bot arrays, and what it guarantees: exactly the
 * elements satisfying the predicate survive, in their original order.
 */
module Seqs {

  /** Elements of s satisfying keep, in order (defined on the prefix, as a left-to-right loop builds it). */
  function Filter<T>(keep: T -> bool, s: seq<T>): seq<T>
    decreases |s|
  {
    if s == [] then []
    else Filter(keep, s[..|s| - 1]) + (if keep(s[|s| - 1]) then [s[|s| - 1]] else [])
  }

  /** One more element processed by the loop. */
  lemma FilterStep<T>(keep: T -> bool, s: seq<T>, i: nat)
    requires i < |s|
    ensures Filter(keep, s[..i + 1]) == Filter(keep, s[..i]) + (if keep(s[i]) then [s[i]] else [])
  {
    assert s[..i + 1][..i] == s[..i];
  }

  /** The strictly increasing positions, in s, of the elements a filter keeps. */
  function KeptIndices<T>(keep: T -> bool, s: seq<T>): (idx: seq<nat>)
    ensures |idx| == |Filter(keep, s)|
    ensures forall k :: 0 <= k < |idx| ==> idx[k] < |s| && Filter(keep, s)[k] == s[idx[k]]
    ensures forall k, l :: 0 <= k < l < |idx| ==> idx[k] < idx[l]
    ensures forall j :: 0 <= j < |s| ==> (keep(s[j]) <==> j in idx)
    decreases |s|
  {
    if s == [] then []
    else
      var n := |s| - 1;
      var front := KeptIndices(keep, s[..n]);
      assert Filter(keep, s) == Filter(keep, s[..n]) + (if keep(s[n]) then [s[n]] else []);
      front + (if keep(s[n]) then [n] else [])
  }

  lemma {:induction false} FilterMembership<T>(keep: T -> bool, s: seq<T>, x: T)
    ensures x in Filter(keep, s) <==> x in s && keep(x)
    decreases |s|
  {
    if s != [] {
      var n := |s| - 1;
      FilterMembership(keep, s[..n], x);
      assert s == s[..n] + [s[n]];
    }
  }

  lemma {:induction false} FilterAllKept<T>(keep: T -> bool, s: seq<T>)
    ensures forall k :: 0 <= k < |Filter(keep, s)| ==> keep(Filter(keep, s)[k])
    decreases |s|
  {
    if s != [] {
      FilterAllKept(keep, s[..|s| - 1]);
    }
  }

  /** Filtering keeps everything iff every element passes. */
  lemma {:induction false} FilterIdentity<T>(keep: T -> bool, s: seq<T>)
    ensures Filter(keep, s) == s <==> forall k :: 0 <= k < |s| ==> keep(s[k])
    decreases |s|
  {
    if forall k :: 0 <= k < |s| ==> keep(s[k]) {
      FilterKeepsAll(keep, s);
    } else {
      FilterAllKept(keep, s);
    }
  }

  lemma {:induction false} FilterKeepsAll<T>(keep: T -> bool, s: seq<T>)
    requires forall k :: 0 <= k < |s| ==> keep(s[k])
    ensures Filter(keep, s) == s
    decreases |s|
  {
    if s != [] {
      var n := |s| - 1;
      FilterKeepsAll(keep, s[..n]);
      assert s == s[..n] + [s[n]];
    }
  }

  /** Filtering a concatenation filters each part. */
  lemma {:induction false} FilterAppend<T>(keep: T -> bool, a: seq<T>, b: seq<T>)
    ensures Filter(keep, a + b) == Filter(keep, a) + Filter(keep, b)
    decreases |b|
  {
    if b == [] {
      assert a + b == a;
    } else {
      var n := |b| - 1;
      FilterAppend(keep, a, b[..n]);
      assert (a + b)[..|a + b| - 1] == a + b[..n];
    }
  }

  /** No element occurs twice. */
  predicate Distinct<T(==)>(s: seq<T>)
  {
    forall i, j :: 0 <= i < j < |s| ==> s[i] != s[j]
  }

  lemma FilterDistinct<T>(keep: T -> bool, s: seq<T>)
    requires Distinct(s)
    ensures Distinct(Filter(keep, s))
  {
    var idx := KeptIndices(keep, s);
    var f := Filter(keep, s);
    forall i, j | 0 <= i < j < |f| ensures f[i] != f[j] {
      assert f[i] == s[idx[i]] && f[j] == s[idx[j]] && idx[i] < idx[j];
    }
  }
}

=== FILE: settings.dfy ===
/** The settings record the options menu hands to the game (GameSettings in Game.ts). */
module Settings {
  /** The movement-speed tier: 'Standard' | 'Fast' | 'Very Fast'. */
  datatype SpeedTier = Standard | Fast | VeryFast

  /** damageMultiplier scales bot-owned projectile damage at impact; movementSpeed picks the bots' speed. */
  datatype GameSettings = GameSettings(damageMultiplier: real, movementSpeed: SpeedTier)
}
